=== FILE: README.md ===
# Temperature dashboard model

A Dafny model of the logic in the temperature-sensing dashboard component
(`frontend/src/components/Dashboard.jsx`). The dashboard loads records,
each with an id, a timestamp and a list of sensor readings. Each sensor
has an address, and the sensors at four fixed addresses stand for the
front, back, left and right walls.
It falls back to three built-in sample records when the backend is
unreachable or empty. For the selected object it:

- keeps the records whose id lies in that object's id interval, compares
  ids as JavaScript strings, and sorts them by time;
- enriches each record into a frame: average ambient and object
  temperature, spatial gradient, wall sensor map, and rate of change
  against the previous frame;
- plays the frames back under a cursor that a timer, a rewind button, a
  play/pause button and a slider move.

For the frame under the cursor it derives a stability score, a
rapid-warming anomaly flag and an orb colour band.

Modules:

- `StringOrder`: JavaScript's `<` and `<=` on strings, with its order laws.
- `Readings`: the record data model, the object id table, `find`, the
  inclusive id filter and the stable sort by time.
- `Frames`: the validity filter, the means, the gradient, the sensor map,
  the rate, and `Process`, the filter-sort-enrich pipeline.
- `Analytics`: the current frame, the wall variance, the stability score,
  the anomaly threshold and the orb colours.
- `Playback`: the dashboard as a state machine. It covers `processByItem`,
  loading with its fallback, the timer tick, rewind, play/pause, the slider
  and the object menu. Its invariant holds in every reachable state.
- `SampleData`: the built-in sample records and what the pipeline makes of
  them, computed exactly.

Notes on the model:

- A sensor field is missing (`undefined`), `null`, or a number.
  - The validity filter used for the averages tests only for `undefined`.
    A `null` field does not make a sensor invalid: it contributes 0 to the
    sums and to `Math.max`/`Math.min`, as JavaScript coerces it.
  - The wall list used for the variance drops both `undefined` and `null`
    ambient readings, whatever the sensor's object temperature.
- The variance is centred on the frame's average ambient temperature over
  all valid sensors, as the code computes it, and not on the mean of the
  wall readings themselves. The two agree when the record has exactly one
  sensor at each of the four wall addresses and no other sensors, and each
  of them has a numeric ambient temperature and an object temperature that
  is not `undefined`.
- Timestamps are integers in milliseconds. Numbers are exact reals.

## Model

| member | source | states |
|---|---|---|
| StringOrder.FirstDifferenceDecides | frontend/src/components/Dashboard.jsx:92 | past a common prefix, the first differing character alone decides `<` on ids |
| StringOrder.LessMeansLexBefore | frontend/src/components/Dashboard.jsx:92 | the string `<` used on ids is exactly lexicographic order: a proper prefix, or smaller at the first difference |
| StringOrder.LessIrreflexive | frontend/src/components/Dashboard.jsx:92 | no id is smaller than itself |
| StringOrder.LessAsymmetric | frontend/src/components/Dashboard.jsx:92 | two ids are never each smaller than the other |
| StringOrder.LessTransitive | frontend/src/components/Dashboard.jsx:92 | string `<` is transitive |
| StringOrder.LessTrichotomous | frontend/src/components/Dashboard.jsx:92 | two different ids are always ordered one way or the other |
| StringOrder.LessEqIsEqualOrLess | frontend/src/components/Dashboard.jsx:92 | `a <= b` holds exactly when the ids are equal or `a < b` |
| StringOrder.LessEqTransitive | frontend/src/components/Dashboard.jsx:92 | `<=` on ids is transitive |
| StringOrder.LessEqAntisymmetric | frontend/src/components/Dashboard.jsx:92 | ids each `<=` the other are equal |
| Readings.FindFirst | frontend/src/components/Dashboard.jsx:88 | `find` gives nothing exactly when no element matches, otherwise the first matching element |
| Readings.FindRange | frontend/src/components/Dashboard.jsx:88-89 | the object lookup fails exactly when no table entry has the name, otherwise it gives the first entry with that name |
| Readings.ObjectNamesDistinct | frontend/src/components/Dashboard.jsx:26-32 | the five object names in the table are pairwise different |
| Readings.FindListedObject | frontend/src/components/Dashboard.jsx:26-32 | looking up any listed name finds that very entry |
| Readings.StartBeforeEnd | frontend/src/components/Dashboard.jsx:26-32 | every id interval of the table is non-empty |
| Readings.EndBeforeNextStart | frontend/src/components/Dashboard.jsx:26-32 | each interval ends before the next one starts |
| Readings.EndBeforeLaterStart | frontend/src/components/Dashboard.jsx:26-32 | each interval ends before every later one starts |
| Readings.RangeEndsIncluded | frontend/src/components/Dashboard.jsx:92 | the filter is inclusive at both ends: an interval's own start and end ids pass it |
| Readings.RangesDisjoint | frontend/src/components/Dashboard.jsx:26-32 | no id passes the filter of two different objects |
| Readings.FilterByRange | frontend/src/components/Dashboard.jsx:91-92 | the filter keeps every reading whose id lies in the interval, as often as it occurs, and drops every other reading; the order it keeps them in is stated by FilterAppend |
| Readings.FilterSingleton | frontend/src/components/Dashboard.jsx:92 | one reading is kept exactly when its id lies between the interval's ends, both included |
| Readings.FilterAppend | frontend/src/components/Dashboard.jsx:92 | filtering a concatenation is the concatenation of the filtered parts, so with FilterSingleton the filter keeps the matching readings in their input order |
| Readings.FilterKeepsAllInRange | frontend/src/components/Dashboard.jsx:91-92 | when every reading is in the interval, the filter returns the list unchanged |
| Readings.InsertByTime | frontend/src/components/Dashboard.jsx:93 | inserting into a time-sorted list keeps it sorted and adds exactly that one reading |
| Readings.SortByTime | frontend/src/components/Dashboard.jsx:93 | the sort returns a permutation of its input in ascending time order |
| Readings.SortKeepsSorted | frontend/src/components/Dashboard.jsx:93 | a list already in time order comes out of the sort unchanged |
| Readings.SortIsStable | frontend/src/components/Dashboard.jsx:93 | readings sharing a timestamp keep their relative order through the sort |
| Readings.FilterAtTime | frontend/src/components/Dashboard.jsx:91-92 | filtering by id commutes with selecting the readings of one timestamp, so the readings at each timestamp are filtered independently of the others |
| Frames.ValidSensors | frontend/src/components/Dashboard.jsx:103-104 | the valid sensors are exactly the sensors with neither temperature `undefined`, each kept as often as it occurs |
| Frames.AllValidSensors | frontend/src/components/Dashboard.jsx:104 | when every sensor is valid, all of them take part |
| Frames.Mean | frontend/src/components/Dashboard.jsx:106-107 | an average times the count is the sum, and the average of no values is 0 |
| Frames.Max | frontend/src/components/Dashboard.jsx:110 | `Math.max` is a member of the list bounding every element from above |
| Frames.Min | frontend/src/components/Dashboard.jsx:111 | `Math.min` is a member of the list bounding every element from below |
| Frames.Gradient | frontend/src/components/Dashboard.jsx:110-112 | the gradient is never negative |
| Frames.MeanBounds | frontend/src/components/Dashboard.jsx:106-107 | an average lies within any bounds of the averaged values |
| Frames.MeanWithinRange | frontend/src/components/Dashboard.jsx:106-111 | an average lies between the smallest and the largest value |
| Frames.GradientZeroIffUniform | frontend/src/components/Dashboard.jsx:109-112 | the gradient is zero exactly when all ambient readings agree |
| Frames.MeanOfUniform | frontend/src/components/Dashboard.jsx:106-107 | when all values are equal, the average is that value |
| Frames.WallAddressesDistinct | frontend/src/components/Dashboard.jsx:115-118 | the four walls are looked up under four different addresses |
| Frames.Slot | frontend/src/components/Dashboard.jsx:115-118 | a wall slot is empty exactly when no sensor has the wall's address, otherwise it holds the first such sensor |
| Frames.MapSensors | frontend/src/components/Dashboard.jsx:114-119 | each of the four slots holds the first sensor at its wall's address, or is empty when there is none |
| Frames.SensorOnOneWall | frontend/src/components/Dashboard.jsx:114-119 | no sensor fills two wall slots of the map |
| Frames.Summarize | frontend/src/components/Dashboard.jsx:102-122 | the averages are the means of the valid sensors' readings, the sensor map is taken over all sensors, and with no valid sensor the averages and the gradient are 0; otherwise each average lies between the smallest and the largest reading, and the gradient is their spread |
| Frames.Rate | frontend/src/components/Dashboard.jsx:126-130 | when time advanced, rate times the elapsed minutes is the object temperature change; otherwise the rate is 0 |
| Frames.RateSign | frontend/src/components/Dashboard.jsx:126-130 | the rate is positive exactly when time advanced and the object warmed, and negative exactly when time advanced and it cooled |
| Frames.Enrich | frontend/src/components/Dashboard.jsx:102-133 | one frame per reading, in order, each with its reading's statistics; the first frame has rate 0 and each later one is rated against its predecessor |
| Frames.Process | frontend/src/components/Dashboard.jsx:91-133 | the frames are the matching readings in time order, as many as match, each inside the interval and carrying its own statistics; the first frame's rate is 0 |
| Frames.ProcessKeepsExactlyMatching | frontend/src/components/Dashboard.jsx:91-92 | a reading appears among the frames exactly when it is in the input and its id lies in the interval |
| Frames.ProcessIsStable | frontend/src/components/Dashboard.jsx:91-93 | the frames at each timestamp are the matching input readings at that timestamp, in input order |
| Frames.EnrichRate | frontend/src/components/Dashboard.jsx:125-133 | in a time-sorted list, each later frame's rate is its temperature change over the elapsed minutes |
| Frames.EnrichIsRatedInOrder | frontend/src/components/Dashboard.jsx:125-133 | enriching a time-sorted list yields frames in time order, each rated against the previous one |
| Frames.ProcessIsRatedInOrder | frontend/src/components/Dashboard.jsx:91-133 | the processed frames are in time order, and each carries its rate against the previous frame |
| Analytics.SlotAmbient | frontend/src/components/Dashboard.jsx:162-165 | a wall contributes exactly when its slot holds a sensor with a numeric ambient temperature, and then it contributes that temperature once |
| Analytics.WallAmbients | frontend/src/components/Dashboard.jsx:162-165 | at most four readings; each is the numeric ambient temperature of some filled wall slot, and every such temperature is in the list |
| Analytics.WallAmbientsCount | frontend/src/components/Dashboard.jsx:162-165 | a temperature appears in the wall list as many times as there are walls reading it, so two walls at the same temperature both weigh in the variance |
| Analytics.Square | frontend/src/components/Dashboard.jsx:168 | a square is never negative, and zero only for zero |
| Analytics.SumSquares | frontend/src/components/Dashboard.jsx:168 | the summed squared deviations are never negative, and zero exactly when every reading equals the centre |
| Analytics.Variance | frontend/src/components/Dashboard.jsx:168 | the variance is never negative, and zero exactly when every wall reading equals the average ambient temperature (or there are none) |
| Analytics.StabilityScore | frontend/src/components/Dashboard.jsx:169 | the score is never negative and, for a non-negative variance, at most 100 |
| Analytics.StabilityAntitone | frontend/src/components/Dashboard.jsx:169 | more variance never raises the score |
| Analytics.StabilityExtremes | frontend/src/components/Dashboard.jsx:169 | the score is 100 exactly for zero variance and 0 exactly from a variance of 5 upward |
| Analytics.Analyze | frontend/src/components/Dashboard.jsx:158-176 | without a current frame all figures are 0; otherwise the score is the stability of the wall readings' variance around the frame's average ambient temperature, within 0 to 100, and gradient and rate are the frame's |
| Analytics.FullStabilityIffWallsAtAverage | frontend/src/components/Dashboard.jsx:161-169 | the score is 100 exactly when every numeric wall reading equals the frame's average ambient temperature |
| Analytics.AnomalyNeedsFastFrame | frontend/src/components/Dashboard.jsx:288-290 | the warning shows only when there is a current frame whose rate exceeds 0.5 |
| Analytics.AnomalyMeansRapidWarming | frontend/src/components/Dashboard.jsx:288-290 | on time-ordered rated frames, the warning means the cursor is past the first frame and the object warmed by more than 0.5 degrees per elapsed minute |
| Analytics.BandMonotone | frontend/src/components/Dashboard.jsx:178-182 | a warmer object never gets a colder colour band |
| Analytics.BandIntervals | frontend/src/components/Dashboard.jsx:178-182 | the bands are below 10, from 10 to below 20, and from 20 up |
| Analytics.OrbColorsMeaning | frontend/src/components/Dashboard.jsx:178-184 | the orb is grey exactly when there is no frame, and otherwise its colours tell which temperature interval the object average lies in |
| Analytics.BandColorsDistinct | frontend/src/components/Dashboard.jsx:178-182 | different bands are drawn in different colours |
| Playback.SliderPositionsAreFrames | frontend/src/components/Dashboard.jsx:226 | the slider offers exactly the frame indices when there are frames, and only 0 when there are none |
| Playback.Tick | frontend/src/components/Dashboard.jsx:139-152 | a tick advances the cursor by one exactly when playing and before the last frame; playing continues only in that case |
| Playback.RewindReplays | frontend/src/components/Dashboard.jsx:222 | rewinding while playing replays the frames in order, one per tick, and stops paused on the last one |
| Playback.TogglePlayTwice | frontend/src/components/Dashboard.jsx:223 | pressing play/pause twice leaves the cursor as it was |
| Playback.SeekHoldsUnderTimer | frontend/src/components/Dashboard.jsx:226 | a frame chosen on the slider stays on screen however many timer ticks pass, because the slider pauses playback |
| Playback.ProcessByItem | frontend/src/components/Dashboard.jsx:87-137 | an unknown name changes nothing; otherwise the frames become the object's processed frames and the cursor the last frame, or 0 when none match |
| Playback.LoadedReadings | frontend/src/components/Dashboard.jsx:59-85 | the dashboard always has records to show: the backend list when it is non-empty, otherwise the sample records |
| Playback.Start | frontend/src/components/Dashboard.jsx:50-85 | after loading, the first object is shown from the loaded records, paused, with the cursor on its last frame |
| Playback.TickStaysOnSlider | frontend/src/components/Dashboard.jsx:142-148 | a tick never moves a cursor that lies on the slider off it |
| Playback.StartEstablishesInvariant | frontend/src/components/Dashboard.jsx:59-85 | whatever the backend returns, the loaded state has the cursor on the slider and the selected object's frames, in order and rated |
| Playback.StepKeepsInvariant | frontend/src/components/Dashboard.jsx:207-226 | every menu selection, tick, rewind, play/pause and slider move keeps the cursor on the slider and the selected object's frames in order and rated |
| Playback.RunKeepsInvariant | frontend/src/components/Dashboard.jsx:139-226 | every reachable sequence of events keeps that invariant |
| Playback.CursorOnFrame | frontend/src/components/Dashboard.jsx:156 | in a reachable state there is a current frame exactly when there are frames |
| Playback.AnomalyInReachableState | frontend/src/components/Dashboard.jsx:288-290 | in a reachable state the warning means the object warmed by more than 0.5 degrees per minute since the previous frame |
| Playback.PausedIgnoresTimer | frontend/src/components/Dashboard.jsx:140-152 | a paused cursor stays put whatever number of ticks pass |
| Playback.PlayRunsToEnd | frontend/src/components/Dashboard.jsx:139-152 | playing from any slider position reaches the last frame and stops there, paused |
| Playback.PlayAdvances | frontend/src/components/Dashboard.jsx:142-148 | before the last frame, n ticks move a playing cursor forward by exactly n frames |
| Playback.SelectUnknownKeepsFrames | frontend/src/components/Dashboard.jsx:209-211 | choosing a name the table lacks records the choice and leaves frames and cursor alone |
| Playback.SelectListedObject | frontend/src/components/Dashboard.jsx:209-211 | choosing a listed object shows its frames from the loaded records, cursor on the last frame, playing unchanged |
| Playback.FallbackStart | frontend/src/components/Dashboard.jsx:69-79 | without backend data the dashboard opens on the three sample frames, paused on the last, with stability 99.2625, gradient 0.5, rate 0.8 and the warning raised |
| SampleData.SampleInFirstRange | frontend/src/components/Dashboard.jsx:35-39 | every sample id lies in the first object's interval |
| SampleData.SamplesAreFirstObject | frontend/src/components/Dashboard.jsx:35-39 | filtering the samples for the first object keeps all of them, and sorting leaves them in place |
| SampleData.FirstSampleStats | frontend/src/components/Dashboard.jsx:36 | the first sample averages 29.15 ambient and 4.85 object, with gradient 0.3 |
| SampleData.SecondSampleStats | frontend/src/components/Dashboard.jsx:37 | the second sample averages 28.7 ambient and 7.85 object, with gradient 0.4 |
| SampleData.ThirdSampleStats | frontend/src/components/Dashboard.jsx:38 | the third sample averages 28.275 ambient and 11.85 object, with gradient 0.5 |
| SampleData.SampleProcess | frontend/src/components/Dashboard.jsx:35-39 | the first object's frames are the samples enriched in their given order |
| SampleData.SampleFrames | frontend/src/components/Dashboard.jsx:35-39 | the samples give three frames with rates 0, 0.6 and 0.8 degrees per minute |
| SampleData.FirstSamplePanel | frontend/src/components/Dashboard.jsx:36 | on the first sample the walls' variance is 0.0125, so the stability is 99.75 |
| SampleData.LastSamplePanel | frontend/src/components/Dashboard.jsx:38 | on the last sample the stability is 99.2625 and the rate of 0.8 raises the warning |

## Left out

- Fetching from the backend is not modelled; the outcome is a parameter of `Playback.Start`. `None` stands for a failed request or a reply that is not an array.
- Rendering is not modelled: charts, icons, styles and the loading screen.
- The `loading` and `dataSource` flags are not modelled. They only choose what text is shown.
- The 100 ms `setInterval` timer is a `TimerTick` event. Its start, stop and cleanup are not modelled.
- Parsing timestamps with `new Date` is not modelled. Timestamps are integers in milliseconds, so invalid dates (`NaN`) cannot occur.
- Floating point is not modelled. Arithmetic is exact, so `isFinite` on the gradient and the rate never triggers and is omitted.
- Analytics.StabilityScore: gives the score before `toFixed(1)` turns it into a one-decimal string. Rounding that string and parsing it back are not modelled.
- Analytics.IsAnomalous: compares the rate as a number. The `parseFloat` round trip and the "Low/High" variance label are display formatting.
- StringOrder.Less: compares `char` values. JavaScript compares UTF-16 code units; the two agree on the ASCII hex ids.
- Playback.Seek: takes the slider value as an integer. The `parseInt` of the input's text is not modelled.
- The backend (`backend/main.py`) is not part of this model.

=== FILE: analytics.dfy ===
/**
  What the dashboard derives from the frame under the playback cursor: the
  variance-based stability score, the spatial gradient and rate shown
  beside it, the rapid-warming anomaly flag, and the colour band of the
  object temperature.
 */
module Analytics {
  import opened Readings
  import opened Frames

  /** `processedData[playbackIndex] || null`: the frame at the cursor, if the cursor is inside the list. */
  function CurrentFrame(fs: seq<Frame>, index: int): Option<Frame> {
    if 0 <= index < |fs| then Some(fs[index]) else None
  }

  /** 1 when wall `w` holds a sensor whose ambient reading is the number `v`, otherwise 0. */
  function SlotCount(m: SensorMap, w: Wall, v: real): nat {
    if m.Get(w).Some? && m.Get(w).value.ambientTemp == Num(v) then 1 else 0
  }

  /** The ambient reading of one wall slot when it is a number; an empty slot, `undefined` or `null` give nothing. */
  function SlotAmbient(m: SensorMap, w: Wall): (xs: seq<real>)
    ensures |xs| <= 1
    ensures forall v :: multiset(xs)[v] == SlotCount(m, w, v)
    ensures |xs| == 1 <==> m.Get(w).Some? && m.Get(w).value.ambientTemp.Num?
    ensures |xs| == 1 ==> xs[0] == m.Get(w).value.ambientTemp.value
  {
    match m.Get(w)
    case Some(s) => if s.ambientTemp.Num? then [s.ambientTemp.value] else []
    case None => []
  }

  /**
    The numeric ambient readings of the four wall slots, front, back, left,
    right: every value in the list is some filled slot's numeric reading,
    and every filled slot's numeric reading is in the list.
   */
  function WallAmbients(m: SensorMap): (xs: seq<real>)
    ensures |xs| <= 4
    ensures forall i :: 0 <= i < |xs| ==> exists w :: m.Get(w).Some? && m.Get(w).value.ambientTemp == Num(xs[i])
    ensures forall w :: m.Get(w).Some? && m.Get(w).value.ambientTemp.Num? ==> m.Get(w).value.ambientTemp.value in xs
  {
    SlotAmbient(m, Front) + SlotAmbient(m, Back) + SlotAmbient(m, Left) + SlotAmbient(m, Right)
  }

  /** A reading occurs in the wall list exactly as often as there are walls reading it. */
  lemma WallAmbientsCount(m: SensorMap, v: real)
    ensures multiset(WallAmbients(m))[v] == SlotCount(m, Front, v) + SlotCount(m, Back, v) + SlotCount(m, Left, v) + SlotCount(m, Right, v)
  {
  }

  /** A product of two reals, with the sign rules the variance relies on. */
  function Times(a: real, b: real): (r: real)
    ensures a > 0.0 && b > 0.0 ==> r > 0.0
    ensures a < 0.0 && b < 0.0 ==> r > 0.0
    ensures a == 0.0 || b == 0.0 ==> r == 0.0
  {
    a * b
  }

  /** `Math.pow(d, 2)`: never negative, and zero only for zero. */
  function Square(d: real): (s: real)
    ensures s >= 0.0
    ensures s == 0.0 <==> d == 0.0
  {
    Times(d, d)
  }

  /** Sum of the squared distances of `xs` from `c`; zero exactly when every value is `c`. */
  function SumSquares(xs: seq<real>, c: real): (r: real)
    ensures r >= 0.0
    ensures r == 0.0 <==> forall i :: 0 <= i < |xs| ==> xs[i] == c
  {
    if |xs| == 0 then 0.0
    else
      var rest := SumSquares(xs[1..], c);
      assert forall i :: 1 <= i < |xs| ==> xs[i] == xs[1..][i - 1];
      Square(xs[0] - c) + rest
  }

  /**
    The mean squared distance of `xs` from `center`, 0 for no values. The
    dashboard centres it on the frame's average ambient temperature.
   */
  function Variance(xs: seq<real>, center: real): (v: real)
    ensures v >= 0.0
    ensures v == 0.0 <==> forall i :: 0 <= i < |xs| ==> xs[i] == center
  {
    if |xs| > 0 then SumSquares(xs, center) / |xs| as real else 0.0
  }

  /** `Math.max(0, 100 - variance * 20)`, before the display rounding. */
  function StabilityScore(variance: real): (s: real)
    ensures 0.0 <= s
    ensures variance >= 0.0 ==> s <= 100.0
  {
    if 100.0 - variance * 20.0 > 0.0 then 100.0 - variance * 20.0 else 0.0
  }

  /** More variance never raises the score. */
  lemma StabilityAntitone(v1: real, v2: real)
    requires v1 <= v2
    ensures StabilityScore(v2) <= StabilityScore(v1)
  {
  }

  /** The score is full exactly when there is no variance, and empty from a variance of 5 upward. */
  lemma StabilityExtremes(v: real)
    requires v >= 0.0
    ensures StabilityScore(v) == 100.0 <==> v == 0.0
    ensures StabilityScore(v) == 0.0 <==> v >= 5.0
  {
  }

  /** The figures shown in the analytics panel. */
  datatype Panel = Panel(stabilityScore: real, gradient: real, rate: real)

  /** The panel for the frame at `index`; all zero when there is no such frame. */
  function Analyze(fs: seq<Frame>, index: int): (p: Panel)
    ensures CurrentFrame(fs, index).None? ==> p == Panel(0.0, 0.0, 0.0)
    ensures 0.0 <= p.stabilityScore <= 100.0
    ensures CurrentFrame(fs, index).Some? ==>
              && p.stabilityScore == StabilityScore(Variance(WallAmbients(fs[index].stats.sensorMap), fs[index].stats.avgAmb))
              && p.gradient == fs[index].stats.gradient && p.rate == fs[index].rate
  {
    match CurrentFrame(fs, index)
    case None => Panel(0.0, 0.0, 0.0)
    case Some(f) =>
      var variance := Variance(WallAmbients(f.stats.sensorMap), f.stats.avgAmb);
      Panel(StabilityScore(variance), f.stats.gradient, f.rate)
  }

  /** The panel's score is 100 exactly when every numeric wall reading equals the average ambient temperature. */
  lemma FullStabilityIffWallsAtAverage(fs: seq<Frame>, index: int)
    requires 0 <= index < |fs|
    ensures var xs := WallAmbients(fs[index].stats.sensorMap);
            Analyze(fs, index).stabilityScore == 100.0
            <==> forall i :: 0 <= i < |xs| ==> xs[i] == fs[index].stats.avgAmb
  {
    var f := fs[index];
    StabilityExtremes(Variance(WallAmbients(f.stats.sensorMap), f.stats.avgAmb));
  }

  /** The anomaly threshold: the rate exceeds half a degree per minute. */
  predicate IsAnomalous(p: Panel) {
    p.rate > 0.5
  }

  /** An anomaly needs a frame under the cursor whose own rate exceeds the threshold. */
  lemma AnomalyNeedsFastFrame(fs: seq<Frame>, index: int)
    requires IsAnomalous(Analyze(fs, index))
    ensures 0 <= index < |fs| && fs[index].rate > 0.5
  {
  }

  /**
    An anomaly means a real warming: the cursor is past the first frame, time
    advanced since the previous frame, and the object temperature rose by
    more than half a degree per elapsed minute.
   */
  lemma AnomalyMeansRapidWarming(fs: seq<Frame>, index: int)
    requires RatedInOrder(fs)
    requires IsAnomalous(Analyze(fs, index))
    ensures 0 < index < |fs|
    ensures fs[index - 1].doc.timestamp < fs[index].doc.timestamp
    ensures fs[index].stats.avgObj - fs[index - 1].stats.avgObj
            > 0.5 * MinutesBetween(fs[index - 1].doc.timestamp, fs[index].doc.timestamp)
  {
    AnomalyNeedsFastFrame(fs, index);
    var prev, cur := fs[index - 1], fs[index];
    assert RateAgainst(prev, cur);
    FastRateMeansWarming(cur.rate, MinutesBetween(prev.doc.timestamp, cur.doc.timestamp),
                         cur.stats.avgObj - prev.stats.avgObj);
  }

  lemma FastRateMeansWarming(rate: real, minutes: real, delta: real)
    requires rate > 0.5 && minutes > 0.0 && rate * minutes == delta
    ensures delta > 0.5 * minutes
  {
  }

  /** The three colour bands of the orb. */
  datatype OrbBand = Cold | Mild | Warm

  /** `getOrbColor`'s thresholds: below 10, below 20, otherwise. */
  function Band(temp: real): OrbBand {
    if temp < 10.0 then Cold
    else if temp < 20.0 then Mild
    else Warm
  }

  function BandRank(b: OrbBand): nat {
    match b
    case Cold => 0
    case Mild => 1
    case Warm => 2
  }

  /** A warmer object never gets a colder band. */
  lemma BandMonotone(t1: real, t2: real)
    requires t1 <= t2
    ensures BandRank(Band(t1)) <= BandRank(Band(t2))
  {
  }

  /** Each band is an interval of temperatures, closed below and open above. */
  lemma BandIntervals(temp: real)
    ensures Band(temp) == Cold <==> temp < 10.0
    ensures Band(temp) == Mild <==> 10.0 <= temp < 20.0
    ensures Band(temp) == Warm <==> 20.0 <= temp
  {
  }

  /** The two gradient colours of each band. */
  function BandColors(b: OrbBand): (string, string) {
    match b
    case Cold => ("#3b82f6", "#0ea5e9")
    case Mild => ("#22c55e", "#84cc16")
    case Warm => ("#ef4444", "#f97316")
  }

  /** The orb's colours for the frame under the cursor; grey when there is none. */
  function OrbColors(current: Option<Frame>): (string, string) {
    match current
    case None => ("#555", "#777")
    case Some(f) => BandColors(Band(f.stats.avgObj))
  }

  /** Different bands are drawn in different colours. */
  lemma BandColorsDistinct(a: OrbBand, b: OrbBand)
    requires a != b
    ensures BandColors(a) != BandColors(b)
  {
  }

  /**
    What the orb's colours tell the viewer: grey exactly when there is no
    frame, and otherwise which of the three temperature intervals the
    object's average lies in.
   */
  lemma OrbColorsMeaning(current: Option<Frame>)
    ensures OrbColors(current) == ("#555", "#777") <==> current.None?
    ensures current.Some? ==>
              var t := current.value.stats.avgObj;
              && (OrbColors(current) == BandColors(Cold) <==> t < 10.0)
              && (OrbColors(current) == BandColors(Mild) <==> 10.0 <= t < 20.0)
              && (OrbColors(current) == BandColors(Warm) <==> 20.0 <= t)
  {
    if current.Some? {
      var b := Band(current.value.stats.avgObj);
      BandIntervals(current.value.stats.avgObj);
      forall other: OrbBand | other != b
        ensures BandColors(b) != BandColors(other)
      {
        BandColorsDistinct(b, other);
      }
    }
  }
}

=== FILE: frames.dfy ===
/**
  Frame enrichment: for one object's readings, the average ambient and
  object temperatures over the valid sensors, the spatial gradient, the
  four wall slots, and the rate of change of the object temperature per
  minute against the previous frame. `Process` is the whole pipeline that
  turns the full reading list into the object's enriched frames.
 */
module Frames {
  import opened Readings

  /** The value JavaScript's `+` and `Math.max` see in a present field: `null` counts as 0. */
  function NumberOf(f: Field): real
    requires !f.Absent?
  {
    if f.Num? then f.value else 0.0
  }

  /** A sensor takes part in the averages when neither temperature is `undefined`. */
  predicate IsValid(s: Sensor) {
    !s.ambientTemp.Absent? && !s.objectTemp.Absent?
  }

  /** The valid sensors of a reading, in their original order. */
  function ValidSensors(ss: seq<Sensor>): (vs: seq<Sensor>)
    ensures forall i :: 0 <= i < |vs| ==> IsValid(vs[i])
    ensures forall s :: multiset(vs)[s] == if IsValid(s) then multiset(ss)[s] else 0
  {
    if |ss| == 0 then []
    else
      assert ss == [ss[0]] + ss[1..];
      var rest := ValidSensors(ss[1..]);
      if IsValid(ss[0]) then [ss[0]] + rest else rest
  }

  /** When every sensor is valid, all of them take part. */
  lemma {:induction false} AllValidSensors(ss: seq<Sensor>)
    requires forall i :: 0 <= i < |ss| ==> IsValid(ss[i])
    ensures ValidSensors(ss) == ss
    decreases |ss|
  {
    if |ss| > 0 {
      AllValidSensors(ss[1..]);
      assert ss == [ss[0]] + ss[1..];
    }
  }

  /** The ambient temperatures of the valid sensors of `ss`. */
  function Ambients(ss: seq<Sensor>): (xs: seq<real>)
    ensures |xs| == |ValidSensors(ss)|
  {
    var vs := ValidSensors(ss);
    seq(|vs|, i requires 0 <= i < |vs| => NumberOf(vs[i].ambientTemp))
  }

  /** The object temperatures of the valid sensors of `ss`. */
  function Objects(ss: seq<Sensor>): (xs: seq<real>)
    ensures |xs| == |ValidSensors(ss)|
  {
    var vs := ValidSensors(ss);
    seq(|vs|, i requires 0 <= i < |vs| => NumberOf(vs[i].objectTemp))
  }

  /** `xs.reduce((sum, x) => sum + x, 0)`: folded from the left, starting at 0. */
  function Sum(xs: seq<real>): real {
    if |xs| == 0 then 0.0 else Sum(xs[..|xs| - 1]) + xs[|xs| - 1]
  }

  /**
    `sum / (xs.length || 1)`: the arithmetic mean, and 0 for an empty list
    because the denominator is floored to 1.
   */
  function Mean(xs: seq<real>): (m: real)
    ensures |xs| == 0 ==> m == 0.0
    ensures |xs| > 0 ==> m * |xs| as real == Sum(xs)
  {
    Sum(xs) / (if |xs| == 0 then 1 else |xs|) as real
  }

  /** `Math.max(...xs)` of a non-empty list. */
  function Max(xs: seq<real>): (m: real)
    requires |xs| > 0
    ensures forall i :: 0 <= i < |xs| ==> xs[i] <= m
    ensures m in xs
  {
    if |xs| == 1 then xs[0]
    else
      var rest := Max(xs[1..]);
      assert forall i :: 1 <= i < |xs| ==> xs[i] == xs[1..][i - 1];
      if xs[0] >= rest then xs[0] else rest
  }

  /** `Math.min(...xs)` of a non-empty list. */
  function Min(xs: seq<real>): (m: real)
    requires |xs| > 0
    ensures forall i :: 0 <= i < |xs| ==> m <= xs[i]
    ensures m in xs
  {
    if |xs| == 1 then xs[0]
    else
      var rest := Min(xs[1..]);
      assert forall i :: 1 <= i < |xs| ==> xs[i] == xs[1..][i - 1];
      if xs[0] <= rest then xs[0] else rest
  }

  /** The spatial gradient: largest minus smallest value, 0 for an empty list. */
  function Gradient(xs: seq<real>): (g: real)
    ensures g >= 0.0
  {
    if |xs| > 0 then Max(xs) - Min(xs) else 0.0
  }

  lemma {:induction false} SumBounds(xs: seq<real>, lo: real, hi: real)
    requires forall i :: 0 <= i < |xs| ==> lo <= xs[i] <= hi
    ensures |xs| as real * lo <= Sum(xs) <= |xs| as real * hi
    decreases |xs|
  {
    if |xs| > 0 {
      var init := xs[..|xs| - 1];
      assert forall i :: 0 <= i < |init| ==> init[i] == xs[i];
      SumBounds(init, lo, hi);
      assert |xs| as real * lo == |init| as real * lo + lo;
      assert |xs| as real * hi == |init| as real * hi + hi;
    }
  }

  /** A quotient `m = s / n` with `n * lo <= s <= n * hi` lies in `[lo, hi]`. */
  lemma QuotientWithin(s: real, n: real, m: real, lo: real, hi: real)
    requires n > 0.0 && m * n == s
    requires n * lo <= s <= n * hi
    ensures lo <= m <= hi
  {
  }

  /** A mean of a non-empty list lies within any bounds of its values. */
  lemma MeanBounds(xs: seq<real>, lo: real, hi: real)
    requires |xs| > 0
    requires forall i :: 0 <= i < |xs| ==> lo <= xs[i] <= hi
    ensures lo <= Mean(xs) <= hi
  {
    SumBounds(xs, lo, hi);
    QuotientWithin(Sum(xs), |xs| as real, Mean(xs), lo, hi);
  }

  /** A mean of a non-empty list lies between its smallest and largest value. */
  lemma MeanWithinRange(xs: seq<real>)
    requires |xs| > 0
    ensures Min(xs) <= Mean(xs) <= Max(xs)
  {
    MeanBounds(xs, Min(xs), Max(xs));
  }

  /** The gradient is zero exactly when all values agree. */
  lemma GradientZeroIffUniform(xs: seq<real>)
    ensures Gradient(xs) == 0.0 <==> forall i, j :: 0 <= i < |xs| && 0 <= j < |xs| ==> xs[i] == xs[j]
  {
    if |xs| > 0 && Gradient(xs) != 0.0 {
      var i :| 0 <= i < |xs| && xs[i] == Max(xs);
      var j :| 0 <= j < |xs| && xs[j] == Min(xs);
      assert xs[i] != xs[j];
    }
  }

  /** When every value is the same, so is their mean. */
  lemma {:induction false} MeanOfUniform(xs: seq<real>, v: real)
    requires |xs| > 0
    requires forall i :: 0 <= i < |xs| ==> xs[i] == v
    ensures Mean(xs) == v
  {
    MeanBounds(xs, v, v);
  }

  /** The four sensor positions and the I2C address that identifies each. */
  datatype Wall = Front | Back | Left | Right

  function WallAddress(w: Wall): string {
    match w
    case Front => "0x5a"
    case Back => "0x5b"
    case Left => "0x5c"
    case Right => "0x5d"
  }

  lemma WallAddressesDistinct(v: Wall, w: Wall)
    requires v != w
    ensures WallAddress(v) != WallAddress(w)
  {
  }

  /** The first sensor found at each wall address; `None` plays the role of `{}`. */
  datatype SensorMap = SensorMap(front: Option<Sensor>, back: Option<Sensor>, left: Option<Sensor>, right: Option<Sensor>) {
    function Get(w: Wall): Option<Sensor> {
      match w
      case Front => front
      case Back => back
      case Left => left
      case Right => right
    }
  }

  /** `sensors.find(s => s.address === <address of w>)`. */
  function Slot(ss: seq<Sensor>, w: Wall): (r: Option<Sensor>)
    ensures r.None? <==> forall i :: 0 <= i < |ss| ==> ss[i].address != WallAddress(w)
    ensures r.Some? ==>
              exists i :: 0 <= i < |ss| && ss[i] == r.value && ss[i].address == WallAddress(w)
                          && forall j :: 0 <= j < i ==> ss[j].address != WallAddress(w)
  {
    FindFirst(ss, (s: Sensor) => s.address == WallAddress(w))
  }

  /** The sensor map of a reading's whole sensor list, valid or not. */
  function MapSensors(ss: seq<Sensor>): (m: SensorMap)
    ensures forall w :: m.Get(w).None? <==> forall i :: 0 <= i < |ss| ==> ss[i].address != WallAddress(w)
    ensures forall w :: m.Get(w).Some? ==>
              exists i :: 0 <= i < |ss| && ss[i] == m.Get(w).value && ss[i].address == WallAddress(w)
                          && forall j :: 0 <= j < i ==> ss[j].address != WallAddress(w)
  {
    var m := SensorMap(Slot(ss, Front), Slot(ss, Back), Slot(ss, Left), Slot(ss, Right));
    assert forall w :: m.Get(w) == Slot(ss, w);
    m
  }

  /** No sensor fills two wall slots, because the walls have different addresses. */
  lemma SensorOnOneWall(ss: seq<Sensor>, v: Wall, w: Wall)
    requires v != w && MapSensors(ss).Get(v).Some?
    ensures MapSensors(ss).Get(w) != MapSensors(ss).Get(v)
  {
    WallAddressesDistinct(v, w);
  }

  /** The per-reading statistics the dashboard attaches to each frame. */
  datatype Stats = Stats(avgAmb: real, avgObj: real, gradient: real, sensorMap: SensorMap)

  /**
    The statistics of one reading: the averages are the means of the valid
    sensors' readings, the gradient their ambient spread, and the sensor map
    is taken over all sensors, valid or not.
   */
  function Summarize(doc: Reading): (st: Stats)
    ensures st.avgAmb == Mean(Ambients(doc.sensors)) && st.avgObj == Mean(Objects(doc.sensors))
    ensures st.sensorMap == MapSensors(doc.sensors)
    ensures st.gradient >= 0.0
    ensures |ValidSensors(doc.sensors)| == 0 ==> st.avgAmb == 0.0 && st.avgObj == 0.0 && st.gradient == 0.0
    ensures |ValidSensors(doc.sensors)| > 0 ==>
              && Min(Ambients(doc.sensors)) <= st.avgAmb <= Max(Ambients(doc.sensors))
              && Min(Objects(doc.sensors)) <= st.avgObj <= Max(Objects(doc.sensors))
              && st.gradient == Max(Ambients(doc.sensors)) - Min(Ambients(doc.sensors))
  {
    var amb := Ambients(doc.sensors);
    var obj := Objects(doc.sensors);
    var st := Stats(Mean(amb), Mean(obj), Gradient(amb), MapSensors(doc.sensors));
    if |amb| == 0 then st
    else
      MeanWithinRange(amb);
      MeanWithinRange(obj);
      st
  }

  /** `(t1 - t0) / 60000`: the minutes from `t0` to `t1`, both in milliseconds. */
  function MinutesBetween(t0: int, t1: int): real {
    (t1 - t0) as real / 60000.0
  }

  /**
    Change of the object temperature per minute from `(t0, obj0)` to
    `(t1, obj1)`; 0 when no time has passed or time runs backwards.
   */
  function Rate(t0: int, obj0: real, t1: int, obj1: real): (r: real)
    ensures t1 > t0 ==> r * MinutesBetween(t0, t1) == obj1 - obj0
    ensures t1 <= t0 ==> r == 0.0
  {
    var minutes := MinutesBetween(t0, t1);
    if minutes > 0.0 then (obj1 - obj0) / minutes else 0.0
  }

  /** A positive rate means time advanced and the object warmed; a negative one that it cooled. */
  lemma RateSign(t0: int, obj0: real, t1: int, obj1: real)
    ensures Rate(t0, obj0, t1, obj1) > 0.0 <==> t1 > t0 && obj1 > obj0
    ensures Rate(t0, obj0, t1, obj1) < 0.0 <==> t1 > t0 && obj1 < obj0
  {
    var r, m := Rate(t0, obj0, t1, obj1), MinutesBetween(t0, t1);
    if t1 > t0 {
      assert m > 0.0;
      assert r * m == obj1 - obj0;
      if r > 0.0 { assert r * m > 0.0; }
      if r < 0.0 { assert r * m < 0.0; }
      if r == 0.0 { assert r * m == 0.0; }
    }
  }

  /** A reading together with its statistics and its rate against the previous frame. */
  datatype Frame = Frame(doc: Reading, stats: Stats, rate: real)

  /** The rate of frame `i` of `docs`: 0 for the first frame, otherwise against frame `i - 1`. */
  function RateAt(docs: seq<Reading>, i: nat): real
    requires i < |docs|
  {
    if i == 0 then 0.0
    else Rate(docs[i - 1].timestamp, Summarize(docs[i - 1]).avgObj, docs[i].timestamp, Summarize(docs[i]).avgObj)
  }

  /** Attaches statistics and rates to a time-sorted list of readings. */
  function Enrich(docs: seq<Reading>): (fs: seq<Frame>)
    ensures |fs| == |docs|
    ensures forall i :: 0 <= i < |fs| ==> fs[i].doc == docs[i] && fs[i].stats == Summarize(docs[i])
    ensures |fs| > 0 ==> fs[0].rate == 0.0
    ensures forall i :: 0 < i < |fs| ==>
              fs[i].rate == Rate(fs[i - 1].doc.timestamp, fs[i - 1].stats.avgObj, fs[i].doc.timestamp, fs[i].stats.avgObj)
  {
    seq(|docs|, i requires 0 <= i < |docs| => Frame(docs[i], Summarize(docs[i]), RateAt(docs, i)))
  }

  /** The readings behind a list of frames. */
  function DocsOf(fs: seq<Frame>): (ds: seq<Reading>)
    ensures |ds| == |fs|
  {
    seq(|fs|, i requires 0 <= i < |fs| => fs[i].doc)
  }

  /**
    The frames of one object: the readings inside `range`, sorted by time
    and enriched. The result is empty exactly when no reading matches.
   */
  function Process(docs: seq<Reading>, range: ObjectRange): (fs: seq<Frame>)
    ensures |fs| == |FilterByRange(docs, range)|
    ensures SortedByTime(DocsOf(fs))
    ensures multiset(DocsOf(fs)) == multiset(FilterByRange(docs, range))
    ensures forall i :: 0 <= i < |fs| ==> InRange(fs[i].doc.id, range)
    ensures |fs| > 0 ==> fs[0].rate == 0.0
    ensures forall i :: 0 <= i < |fs| ==> fs[i].stats == Summarize(fs[i].doc)
  {
    var filtered := FilterByRange(docs, range);
    EnrichSorted(filtered, range);
    Enrich(SortByTime(filtered))
  }

  /** Sorting and enriching readings that all lie in `range`. */
  lemma EnrichSorted(filtered: seq<Reading>, range: ObjectRange)
    requires forall i :: 0 <= i < |filtered| ==> InRange(filtered[i].id, range)
    ensures var fs := Enrich(SortByTime(filtered));
            && |fs| == |filtered|
            && DocsOf(fs) == SortByTime(filtered)
            && SortedByTime(DocsOf(fs))
            && multiset(DocsOf(fs)) == multiset(filtered)
            && (forall i :: 0 <= i < |fs| ==> InRange(fs[i].doc.id, range))
            && (|fs| > 0 ==> fs[0].rate == 0.0)
            && (forall i :: 0 <= i < |fs| ==> fs[i].stats == Summarize(fs[i].doc))
  {
    var sorted := SortByTime(filtered);
    SortKeepsInRange(filtered, range);
    DocsOfEnrich(sorted);
  }

  lemma DocsOfEnrich(docs: seq<Reading>)
    ensures DocsOf(Enrich(docs)) == docs
  {
  }

  /** The readings behind the processed frames are the matching readings, stably sorted by time. */
  lemma ProcessDocs(docs: seq<Reading>, range: ObjectRange)
    ensures DocsOf(Process(docs, range)) == SortByTime(FilterByRange(docs, range))
  {
    DocsOfEnrich(SortByTime(FilterByRange(docs, range)));
  }

  /** Frames of `Process` are exactly the matching readings: nothing lost, nothing extra. */
  lemma ProcessKeepsExactlyMatching(docs: seq<Reading>, range: ObjectRange, d: Reading)
    ensures d in DocsOf(Process(docs, range)) <==> d in docs && InRange(d.id, range)
  {
    var ds := DocsOf(Process(docs, range));
    assert d in ds <==> multiset(ds)[d] > 0;
    assert d in docs <==> multiset(docs)[d] > 0;
  }

  /**
    Readings sharing a timestamp appear among the frames in the order they
    had in the input; with sortedness and the multiset equality this fixes
    the frame order completely.
   */
  lemma ProcessIsStable(docs: seq<Reading>, range: ObjectRange, t: int)
    ensures AtTime(DocsOf(Process(docs, range)), t) == FilterByRange(AtTime(docs, t), range)
  {
    SortIsStable(FilterByRange(docs, range), t);
    FilterAtTime(docs, range, t);
    ProcessDocs(docs, range);
  }

  /**
    `cur` carries the rate against `prev`: the object temperature change per
    elapsed minute when time advanced, and 0 when it did not.
   */
  predicate RateAgainst(prev: Frame, cur: Frame) {
    var t0, t1 := prev.doc.timestamp, cur.doc.timestamp;
    && (t1 > t0 ==> cur.rate * MinutesBetween(t0, t1) == cur.stats.avgObj - prev.stats.avgObj)
    && (t1 <= t0 ==> cur.rate == 0.0)
  }

  /** In a time-sorted list, a later frame's rate is its temperature change over the elapsed minutes. */
  lemma EnrichRate(docs: seq<Reading>, i: nat)
    requires SortedByTime(docs)
    requires 0 < i < |docs|
    ensures Enrich(docs)[i - 1].doc.timestamp <= Enrich(docs)[i].doc.timestamp
    ensures RateAgainst(Enrich(docs)[i - 1], Enrich(docs)[i])
  {
    var fs := Enrich(docs);
    var prev, cur := fs[i - 1], fs[i];
    assert prev.doc == docs[i - 1] && cur.doc == docs[i];
    assert cur.rate == Rate(prev.doc.timestamp, prev.stats.avgObj, cur.doc.timestamp, cur.stats.avgObj);
    RateIsRateAgainst(prev, cur);
  }

  lemma RateIsRateAgainst(prev: Frame, cur: Frame)
    requires cur.rate == Rate(prev.doc.timestamp, prev.stats.avgObj, cur.doc.timestamp, cur.stats.avgObj)
    ensures RateAgainst(prev, cur)
  {
  }

  /**
    A frame list whose times never decrease, whose first frame has rate 0,
    and whose every later frame carries its rate against its predecessor.
   */
  predicate RatedInOrder(fs: seq<Frame>) {
    && (|fs| > 0 ==> fs[0].rate == 0.0)
    && forall i :: 0 < i < |fs| ==>
         fs[i - 1].doc.timestamp <= fs[i].doc.timestamp && RateAgainst(fs[i - 1], fs[i])
  }

  /** Enriching a time-sorted list yields frames in time order, each rated against the previous one. */
  lemma EnrichIsRatedInOrder(docs: seq<Reading>)
    requires SortedByTime(docs)
    ensures RatedInOrder(Enrich(docs))
  {
    var fs := Enrich(docs);
    forall i | 0 < i < |fs|
      ensures fs[i - 1].doc.timestamp <= fs[i].doc.timestamp && RateAgainst(fs[i - 1], fs[i])
    {
      EnrichRate(docs, i);
    }
  }

  /** The processed frames are in time order and each carries its rate against the previous one. */
  lemma ProcessIsRatedInOrder(docs: seq<Reading>, range: ObjectRange)
    ensures RatedInOrder(Process(docs, range))
  {
    var sorted := SortByTime(FilterByRange(docs, range));
    EnrichIsRatedInOrder(sorted);
    assert Process(docs, range) == Enrich(sorted);
  }
}

=== FILE: playback.dfy ===
/**
  The dashboard as a state machine: the loaded readings, the selected
  object, its frames, and the playback cursor that the timer, the rewind
  and play buttons and the slider move. `Step` applies one user or timer
  event; the lemmas show that every reachable state keeps the cursor on
  the slider and the frames in rated time order.
 */
module Playback {
  import opened Readings
  import opened Frames
  import Analytics
  import SampleData

  /** The playback cursor: the index of the frame on screen, and whether the timer advances it. */
  datatype Cursor = Cursor(index: int, playing: bool)

  /** The component's state: the loaded readings, the selected object's name, its frames and the cursor. */
  datatype Dashboard = Dashboard(raw: seq<Reading>, selected: string, frames: seq<Frame>, cursor: Cursor)

  /** `Math.max(0, len - 1)`: the slider's upper end, the last frame's index or 0 for no frames. */
  function SliderMax(len: int): int {
    if len - 1 > 0 then len - 1 else 0
  }

  /**
    One timer tick while `len` frames are shown. A paused cursor stays put;
    a playing one moves one frame forward, and at the last frame (or past
    it) it stays where it is and stops playing.
   */
  function Tick(c: Cursor, len: int): (r: Cursor)
    ensures r.index == c.index || r.index == c.index + 1
    ensures r.index == c.index + 1 <==> c.playing && c.index < len - 1
    ensures r.playing <==> c.playing && c.index < len - 1
  {
    if !c.playing then c
    else if c.index >= len - 1 then Cursor(c.index, false)
    else Cursor(c.index + 1, true)
  }

  /** `n` timer ticks in a row. */
  function Ticks(c: Cursor, len: int, n: nat): Cursor
    decreases n
  {
    if n == 0 then c else Ticks(Tick(c, len), len, n - 1)
  }

  /** The rewind button: back to the first frame; playing or paused as before. */
  function Rewind(c: Cursor): Cursor {
    Cursor(0, c.playing)
  }

  /** The play/pause button flips whether the timer runs and leaves the frame alone. */
  function TogglePlay(c: Cursor): Cursor {
    Cursor(c.index, !c.playing)
  }

  /** Moving the slider to `value` shows that frame and pauses playback. */
  function Seek(value: int): Cursor {
    Cursor(value, false)
  }

  /**
    Shows the object named `name` built from `docs`: nothing changes when the
    table has no such object; otherwise the frames are replaced and the
    cursor moves to the last frame, or to 0 when no reading matches. Whether
    playback runs is left as it was.
   */
  function ProcessByItem(d: Dashboard, docs: seq<Reading>, name: string): (r: Dashboard)
    ensures FindRange(ObjectRanges, name).None? ==> r == d
    ensures FindRange(ObjectRanges, name).Some? ==>
              && r.frames == Process(docs, FindRange(ObjectRanges, name).value)
              && r.cursor.index == SliderMax(|r.frames|)
              && r.cursor.playing == d.cursor.playing
              && r.raw == d.raw && r.selected == d.selected
  {
    match FindRange(ObjectRanges, name)
    case None => d
    case Some(range) =>
      var frames := Process(docs, range);
      if |frames| == 0 then d.(frames := [], cursor := d.cursor.(index := 0))
      else d.(frames := frames, cursor := d.cursor.(index := SliderMax(|frames|)))
  }

  /**
    The readings the dashboard starts from: what the backend returned when
    that is a non-empty list, and the built-in sample readings when the
    request failed (`None`) or returned nothing.
   */
  function LoadedReadings(fetched: Option<seq<Reading>>): (docs: seq<Reading>)
    ensures fetched.Some? && |fetched.value| > 0 ==> docs == fetched.value
    ensures fetched.None? || |fetched.value| == 0 ==> docs == SampleData.MockData
    ensures |docs| > 0
  {
    if fetched.Some? && |fetched.value| > 0 then fetched.value else SampleData.MockData
  }

  /** The state after loading: the first object of the table shown from the loaded readings, paused. */
  function Start(fetched: Option<seq<Reading>>): (d: Dashboard)
    ensures d.raw == LoadedReadings(fetched) && d.selected == ObjectRanges[0].name
    ensures d.frames == Process(d.raw, ObjectRanges[0])
    ensures d.cursor == Cursor(SliderMax(|d.frames|), false)
  {
    var docs := LoadedReadings(fetched);
    FindListedObject(0);
    ProcessByItem(Dashboard(docs, ObjectRanges[0].name, [], Cursor(0, false)), docs, ObjectRanges[0].name)
  }

  /** What can happen to the dashboard: a selection in the object menu, a timer tick, or a control. */
  datatype Event = Select(name: string) | TimerTick | RewindPressed | PlayPressed | SliderMoved(value: int)

  /** The state after one event. */
  function Step(d: Dashboard, e: Event): Dashboard {
    match e
    case Select(name) => ProcessByItem(d.(selected := name), d.raw, name)
    case TimerTick => d.(cursor := Tick(d.cursor, |d.frames|))
    case RewindPressed => d.(cursor := Rewind(d.cursor))
    case PlayPressed => d.(cursor := TogglePlay(d.cursor))
    case SliderMoved(value) => d.(cursor := Seek(value))
  }

  /** The slider only offers positions between 0 and its upper end. */
  predicate Admissible(d: Dashboard, e: Event) {
    e.SliderMoved? ==> 0 <= e.value <= SliderMax(|d.frames|)
  }

  /** The state after a run of events. */
  function Run(d: Dashboard, es: seq<Event>): Dashboard
    decreases |es|
  {
    if |es| == 0 then d else Run(Step(d, es[0]), es[1..])
  }

  /** Every event of `es` is admissible in the state it is applied to. */
  predicate AdmissibleRun(d: Dashboard, es: seq<Event>)
    decreases |es|
  {
    |es| > 0 ==> Admissible(d, es[0]) && AdmissibleRun(Step(d, es[0]), es[1..])
  }

  /** The frames on screen are those of the selected object, whenever the table lists it. */
  predicate ShowsSelected(d: Dashboard) {
    match FindRange(ObjectRanges, d.selected)
    case Some(range) => d.frames == Process(d.raw, range)
    case None => true
  }

  /**
    What holds in every reachable state: the cursor lies on the slider, the
    frames are in time order each rated against its predecessor, and they
    are the selected object's frames.
   */
  predicate Invariant(d: Dashboard) {
    && 0 <= d.cursor.index <= SliderMax(|d.frames|)
    && SortedByTime(DocsOf(d.frames))
    && RatedInOrder(d.frames)
    && ShowsSelected(d)
  }

  /**
    The slider's positions are exactly the frame indices when there are
    frames, and the single position 0 when there are none.
   */
  lemma SliderPositionsAreFrames(len: nat, i: int)
    ensures len > 0 ==> (0 <= i <= SliderMax(len) <==> 0 <= i < len)
    ensures len == 0 ==> (0 <= i <= SliderMax(len) <==> i == 0)
  {
  }

  /** Pressing play/pause twice restores the cursor. */
  lemma TogglePlayTwice(c: Cursor)
    ensures TogglePlay(TogglePlay(c)) == c
  {
  }

  /** A frame chosen on the slider stays on screen however many timer ticks pass. */
  lemma SeekHoldsUnderTimer(value: int, len: int, n: nat)
    ensures Ticks(Seek(value), len, n) == Seek(value)
  {
    PausedIgnoresTimer(Seek(value), len, n);
  }

  /**
    Rewinding while playing replays the frames from the first: after `n`
    ticks the cursor shows frame `n`, and one tick past the last frame it
    rests there, paused.
   */
  lemma RewindReplays(c: Cursor, len: int, n: nat)
    requires c.playing
    ensures n <= SliderMax(len) ==> Ticks(Rewind(c), len, n) == Cursor(n, true)
    ensures Ticks(Rewind(c), len, SliderMax(len) + 1) == Cursor(SliderMax(len), false)
  {
    if n <= SliderMax(len) {
      PlayAdvances(Rewind(c), len, n);
    }
    PlayRunsToEnd(Rewind(c), len);
  }

  /** A tick never moves a cursor that lies on the slider off it. */
  lemma TickStaysOnSlider(c: Cursor, len: int)
    requires 0 <= c.index <= SliderMax(len)
    ensures 0 <= Tick(c, len).index <= SliderMax(len)
  {
  }

  /** Loading establishes the invariant, whatever the backend returned. */
  lemma StartEstablishesInvariant(fetched: Option<seq<Reading>>)
    ensures Invariant(Start(fetched))
  {
    var d := Start(fetched);
    ProcessIsRatedInOrder(d.raw, ObjectRanges[0]);
    FindListedObject(0);
  }

  /**
    Without readings from the backend the dashboard starts on the three
    sample frames, paused at the last one, whose rate of 0.8 degrees per
    minute raises the rapid-warming flag.
   */
  lemma FallbackStart(fetched: Option<seq<Reading>>)
    requires fetched.None? || |fetched.value| == 0
    ensures var d := Start(fetched);
            && d.frames == Enrich(SampleData.MockData)
            && d.cursor == Cursor(2, false)
            && Analytics.Analyze(d.frames, d.cursor.index) == Analytics.Panel(99.2625, 0.5, 0.8)
            && Analytics.IsAnomalous(Analytics.Analyze(d.frames, d.cursor.index))
  {
    var d := Start(fetched);
    var docs := d.raw;
    SampleData.SampleProcess(docs);
    SampleData.SampleFrames(docs, d.frames);
    SampleData.LastSamplePanel(docs, d.frames);
  }

  /** Every admissible event keeps the invariant. */
  lemma StepKeepsInvariant(d: Dashboard, e: Event)
    requires Invariant(d) && Admissible(d, e)
    ensures Invariant(Step(d, e))
  {
    match e
    case Select(name) =>
      var r := FindRange(ObjectRanges, name);
      if r.Some? {
        ProcessIsRatedInOrder(d.raw, r.value);
      }
    case TimerTick =>
      TickStaysOnSlider(d.cursor, |d.frames|);
    case RewindPressed =>
    case PlayPressed =>
    case SliderMoved(value) =>
  }

  /** A run of admissible events keeps the invariant. */
  lemma {:induction false} RunKeepsInvariant(d: Dashboard, es: seq<Event>)
    requires Invariant(d) && AdmissibleRun(d, es)
    ensures Invariant(Run(d, es))
    decreases |es|
  {
    if |es| > 0 {
      StepKeepsInvariant(d, es[0]);
      RunKeepsInvariant(Step(d, es[0]), es[1..]);
    }
  }

  /** In a reachable state a frame is on screen whenever there are frames at all. */
  lemma CursorOnFrame(d: Dashboard)
    requires Invariant(d)
    ensures Analytics.CurrentFrame(d.frames, d.cursor.index).Some? <==> |d.frames| > 0
  {
  }

  /**
    In a reachable state the anomaly flag always means rapid warming: the
    frame on screen is past the first, and the object temperature rose by
    more than half a degree per minute since the previous frame.
   */
  lemma AnomalyInReachableState(d: Dashboard)
    requires Invariant(d)
    requires Analytics.IsAnomalous(Analytics.Analyze(d.frames, d.cursor.index))
    ensures 0 < d.cursor.index < |d.frames|
    ensures var prev, cur := d.frames[d.cursor.index - 1], d.frames[d.cursor.index];
            && prev.doc.timestamp < cur.doc.timestamp
            && cur.stats.avgObj - prev.stats.avgObj > 0.5 * MinutesBetween(prev.doc.timestamp, cur.doc.timestamp)
  {
    Analytics.AnomalyMeansRapidWarming(d.frames, d.cursor.index);
  }

  /** A paused cursor ignores the timer. */
  lemma {:induction false} PausedIgnoresTimer(c: Cursor, len: int, n: nat)
    requires !c.playing
    ensures Ticks(c, len, n) == c
    decreases n
  {
    if n > 0 {
      PausedIgnoresTimer(Tick(c, len), len, n - 1);
    }
  }

  /**
    Playing from a cursor on the slider runs frame by frame to the last
    frame and stops there: after one tick per remaining frame and one more,
    the cursor rests on the slider's upper end, paused.
   */
  lemma {:induction false} PlayRunsToEnd(c: Cursor, len: int)
    requires c.playing && 0 <= c.index <= SliderMax(len)
    ensures Ticks(c, len, SliderMax(len) - c.index + 1) == Cursor(SliderMax(len), false)
    decreases SliderMax(len) - c.index
  {
    if c.index < len - 1 {
      PlayRunsToEnd(Tick(c, len), len);
    }
  }

  /** Before reaching the end, each tick of a playing cursor shows the next frame. */
  lemma {:induction false} PlayAdvances(c: Cursor, len: int, n: nat)
    requires c.playing && 0 <= c.index && c.index + n <= SliderMax(len)
    ensures Ticks(c, len, n) == Cursor(c.index + n, true)
    decreases n
  {
    if n > 0 {
      PlayAdvances(Tick(c, len), len, n - 1);
    }
  }

  /** Selecting a name the table does not list only records the selection. */
  lemma SelectUnknownKeepsFrames(d: Dashboard, name: string)
    requires forall i :: 0 <= i < |ObjectRanges| ==> ObjectRanges[i].name != name
    ensures Step(d, Select(name)) == d.(selected := name)
  {
  }

  /** Selecting a listed object shows exactly its readings, with the cursor on its latest frame. */
  lemma SelectListedObject(d: Dashboard, i: nat)
    requires i < |ObjectRanges|
    ensures var r := Step(d, Select(ObjectRanges[i].name));
            && r.frames == Process(d.raw, ObjectRanges[i])
            && r.cursor.index == SliderMax(|r.frames|)
            && r.cursor.playing == d.cursor.playing
  {
    FindListedObject(i);
  }
}

=== FILE: readings.dfy ===
/**
  Readings as the dashboard receives them, the static table of object id
  ranges, and the two steps that turn the flat reading list into one
  object's sequence: the inclusive id-range filter and the sort by time.
 */
module Readings {
  import StringOrder

  datatype Option<T> = None | Some(value: T)

  /** A numeric JSON field as JavaScript sees it: missing (`undefined`), `null`, or a number. */
  datatype Field = Absent | Null | Num(value: real)

  /** One sensor sample inside a reading. */
  datatype Sensor = Sensor(address: string, ambientTemp: Field, objectTemp: Field)

  /**
    One stored record. `timestamp` is the record's time already parsed to
    milliseconds; a missing `sensors` list is the empty sequence, which is
    how the dashboard treats it.
   */
  datatype Reading = Reading(id: string, timestamp: int, sensors: seq<Sensor>)

  /** A named object and the inclusive interval of record ids attributed to it. */
  datatype ObjectRange = ObjectRange(name: string, start: string, end: string)

  /** The object table compiled into the dashboard. */
  const ObjectRanges: seq<ObjectRange> := [
    ObjectRange("Ice Gel Bag", "692217a74bf378bf90fcc039", "69222f454bf378bf90fcc294"),
    ObjectRange("Frozen Onion", "6922a6742ac4169f239852e4", "6922beb22ac4169f2398554f"),
    ObjectRange("Frozen Unpeeled Potato", "6922cb2123a56a4d029c8b61", "6922da9a23a56a4d029c8cec"),
    ObjectRange("Peeled Potato", "6923044a53ea1203f6c35c11", "6923264953ea1203f6c35f75"),
    ObjectRange("Frozen Tomato", "69232a4913e11f2f97a58d13", "6923535613e11f2f97a5912b")
  ]

  /** The first element of `s` satisfying `p`, if any (JavaScript `Array.prototype.find`). */
  function FindFirst<T(==)>(s: seq<T>, p: T -> bool): (r: Option<T>)
    ensures r.None? <==> forall i :: 0 <= i < |s| ==> !p(s[i])
    ensures r.Some? ==> exists i :: 0 <= i < |s| && s[i] == r.value && p(s[i])
                                  && forall j :: 0 <= j < i ==> !p(s[j])
  {
    if |s| == 0 then None
    else if p(s[0]) then Some(s[0])
    else
      var rest := FindFirst(s[1..], p);
      if rest.Some? then
        var i :| 0 <= i < |s[1..]| && s[1..][i] == rest.value && p(s[1..][i])
                 && forall j :: 0 <= j < i ==> !p(s[1..][j]);
        assert s[i + 1] == rest.value;
        rest
      else
        rest
  }

  /** The first entry of `table` named `name`, if any. */
  function FindRange(table: seq<ObjectRange>, name: string): (r: Option<ObjectRange>)
    ensures r.None? <==> forall i :: 0 <= i < |table| ==> table[i].name != name
    ensures r.Some? ==> exists i :: 0 <= i < |table| && table[i] == r.value && table[i].name == name
                                  && forall j :: 0 <= j < i ==> table[j].name != name
  {
    FindFirst(table, (e: ObjectRange) => e.name == name)
  }

  /** The table's names are pairwise different. */
  lemma ObjectNamesDistinct()
    ensures forall i, j :: 0 <= i < j < |ObjectRanges| ==> ObjectRanges[i].name != ObjectRanges[j].name
  {
  }

  /** Looking up any listed name finds that very entry. */
  lemma FindListedObject(i: nat)
    requires i < |ObjectRanges|
    ensures FindRange(ObjectRanges, ObjectRanges[i].name) == Some(ObjectRanges[i])
  {
    ObjectNamesDistinct();
  }

  /** Every interval of the table is non-empty: its start comes before its end. */
  lemma StartBeforeEnd(i: nat)
    requires i < |ObjectRanges|
    ensures StringOrder.Less(ObjectRanges[i].start, ObjectRanges[i].end)
  {
    var r := ObjectRanges[i];
    // One case per entry keeps each literal comparison small.
    if i == 0 {
      assert r.start[..4] == r.end[..4] && r.start[4] < r.end[4];
    } else if i == 1 {
      assert r.start[..4] == r.end[..4] && r.start[4] < r.end[4];
    } else if i == 2 {
      assert r.start[..4] == r.end[..4] && r.start[4] < r.end[4];
    } else if i == 3 {
      assert r.start[..4] == r.end[..4] && r.start[4] < r.end[4];
    } else {
      assert r.start[..4] == r.end[..4] && r.start[4] < r.end[4];
    }
    StringOrder.SmallerAt(r.start, r.end, 4);
  }

  /** Each interval of the table ends before the next one starts. */
  lemma EndBeforeNextStart(i: nat)
    requires i + 1 < |ObjectRanges|
    ensures StringOrder.Less(ObjectRanges[i].end, ObjectRanges[i + 1].start)
  {
    // One lemma per entry keeps each literal comparison small.
    var e, s := ObjectRanges[i].end, ObjectRanges[i + 1].start;
    if i == 0 {
      EndBeforeNextStartAt0(e, s);
    } else if i == 1 {
      EndBeforeNextStartAt1(e, s);
    } else if i == 2 {
      EndBeforeNextStartAt2(e, s);
    } else {
      EndBeforeNextStartAt3(e, s);
    }
  }

  lemma EndBeforeNextStartAt0(e: string, s: string)
    requires e == ObjectRanges[0].end && s == ObjectRanges[1].start
    ensures StringOrder.Less(e, s)
  {
    assert e[..4] == s[..4] && e[4] < s[4];
    StringOrder.SmallerAt(e, s, 4);
  }

  lemma EndBeforeNextStartAt1(e: string, s: string)
    requires e == ObjectRanges[1].end && s == ObjectRanges[2].start
    ensures StringOrder.Less(e, s)
  {
    assert e[..4] == s[..4] && e[4] < s[4];
    StringOrder.SmallerAt(e, s, 4);
  }

  lemma EndBeforeNextStartAt2(e: string, s: string)
    requires e == ObjectRanges[2].end && s == ObjectRanges[3].start
    ensures StringOrder.Less(e, s)
  {
    assert e[..3] == s[..3] && e[3] < s[3];
    StringOrder.SmallerAt(e, s, 3);
  }

  lemma EndBeforeNextStartAt3(e: string, s: string)
    requires e == ObjectRanges[3].end && s == ObjectRanges[4].start
    ensures StringOrder.Less(e, s)
  {
    assert e[..5] == s[..5] && e[5] < s[5];
    StringOrder.SmallerAt(e, s, 5);
  }

  lemma {:induction false} EndBeforeLaterStart(i: nat, j: nat)
    requires i < j < |ObjectRanges|
    ensures StringOrder.Less(ObjectRanges[i].end, ObjectRanges[j].start)
    decreases j - i
  {
    EndBeforeNextStart(i);
    if i + 1 < j {
      StartBeforeEnd(i + 1);
      EndBeforeLaterStart(i + 1, j);
      StringOrder.LessTransitive(ObjectRanges[i].end, ObjectRanges[i + 1].start, ObjectRanges[i + 1].end);
      StringOrder.LessTransitive(ObjectRanges[i].end, ObjectRanges[i + 1].end, ObjectRanges[j].start);
    }
  }

  /** `_id >= range.start && _id <= range.end` under JavaScript string comparison. */
  predicate InRange(id: string, range: ObjectRange) {
    StringOrder.LessEq(range.start, id) && StringOrder.LessEq(id, range.end)
  }

  /** The filter is inclusive at both ends: a table entry's own start and end ids belong to it. */
  lemma RangeEndsIncluded(i: nat)
    requires i < |ObjectRanges|
    ensures InRange(ObjectRanges[i].start, ObjectRanges[i])
    ensures InRange(ObjectRanges[i].end, ObjectRanges[i])
  {
    var r := ObjectRanges[i];
    StartBeforeEnd(i);
    StringOrder.LessIrreflexive(r.start);
    StringOrder.LessIrreflexive(r.end);
    StringOrder.LessAsymmetric(r.start, r.end);
  }

  /** No id is attributed to two objects of the table. */
  lemma RangesDisjoint(id: string, i: nat, j: nat)
    requires i < |ObjectRanges| && j < |ObjectRanges| && i != j
    requires InRange(id, ObjectRanges[i])
    ensures !InRange(id, ObjectRanges[j])
  {
    var lo, hi := if i < j then i else j, if i < j then j else i;
    EndBeforeLaterStart(lo, hi);
    var e, s := ObjectRanges[lo].end, ObjectRanges[hi].start;
    if InRange(id, ObjectRanges[lo]) && InRange(id, ObjectRanges[hi]) {
      StringOrder.LessEqIsEqualOrLess(id, e);
      StringOrder.LessEqIsEqualOrLess(s, id);
      if StringOrder.Less(id, e) {
        StringOrder.LessTransitive(id, e, s);
      }
      if StringOrder.Less(s, id) {
        StringOrder.LessTransitive(s, id, e);
        StringOrder.LessAsymmetric(s, e);
      }
      if StringOrder.Less(id, s) {
        StringOrder.LessAsymmetric(id, s);
      }
      StringOrder.LessIrreflexive(e);
    }
  }

  /**
    The readings whose id lies inside `range`, both ends included, in their
    original order: each reading is kept as often as it occurs, or dropped.
   */
  function FilterByRange(docs: seq<Reading>, range: ObjectRange): (out: seq<Reading>)
    ensures forall d :: multiset(out)[d] == if InRange(d.id, range) then multiset(docs)[d] else 0
    ensures forall i :: 0 <= i < |out| ==> InRange(out[i].id, range)
  {
    if |docs| == 0 then []
    else
      assert docs == [docs[0]] + docs[1..];
      var rest := FilterByRange(docs[1..], range);
      if InRange(docs[0].id, range) then [docs[0]] + rest else rest
  }

  /** When every reading lies inside the range, the filter keeps the list as it is. */
  lemma {:induction false} FilterKeepsAllInRange(docs: seq<Reading>, range: ObjectRange)
    requires forall i :: 0 <= i < |docs| ==> InRange(docs[i].id, range)
    ensures FilterByRange(docs, range) == docs
    decreases |docs|
  {
    if |docs| > 0 {
      FilterKeepsAllInRange(docs[1..], range);
      assert docs == [docs[0]] + docs[1..];
    }
  }

  /** What the filter keeps of one reading: the reading itself, or nothing. */
  function KeptOf(d: Reading, range: ObjectRange): seq<Reading> {
    if InRange(d.id, range) then [d] else []
  }

  /** The filter decides the head reading, then filters the rest behind it. */
  lemma FilterCons(d: Reading, s: seq<Reading>, range: ObjectRange)
    ensures FilterByRange([d] + s, range) == KeptOf(d, range) + FilterByRange(s, range)
  {
  }

  /** A single reading is kept exactly when its id lies in the range. */
  lemma FilterSingleton(d: Reading, range: ObjectRange)
    ensures FilterByRange([d], range) == if InRange(d.id, range) then [d] else []
  {
  }

  /** Filtering a non-empty list keeps or drops its head, then filters its tail. */
  lemma FilterHead(a: seq<Reading>, range: ObjectRange)
    requires |a| > 0
    ensures FilterByRange(a, range) == KeptOf(a[0], range) + FilterByRange(a[1..], range)
  {
    FilterCons(a[0], a[1..], range);
    assert [a[0]] + a[1..] == a;
  }

  /** Concatenation is associative. */
  lemma ConcatAssoc(x: seq<Reading>, y: seq<Reading>, z: seq<Reading>)
    ensures x + (y + z) == (x + y) + z
  {
  }

  /**
    Filtering a concatenation filters each part and keeps the parts in
    order; with FilterSingleton this fixes the filter's output, order
    included, as `Array.prototype.filter` keeps the input order.
   */
  lemma {:induction false} FilterAppend(a: seq<Reading>, b: seq<Reading>, range: ObjectRange)
    ensures FilterByRange(a + b, range) == FilterByRange(a, range) + FilterByRange(b, range)
    decreases |a|
  {
    if |a| == 0 {
      assert a + b == b;
    } else {
      var ab := a + b;
      assert ab[0] == a[0] && ab[1..] == a[1..] + b;
      FilterHead(ab, range);
      FilterAppend(a[1..], b, range);
      FilterHead(a, range);
      ConcatAssoc(KeptOf(a[0], range), FilterByRange(a[1..], range), FilterByRange(b, range));
    }
  }

  /** Readings in ascending time order; equal times may appear in either order. */
  predicate SortedByTime(s: seq<Reading>) {
    forall i, j :: 0 <= i < j < |s| ==> s[i].timestamp <= s[j].timestamp
  }

  /** Inserts `x` into a time-sorted list in front of the first reading not earlier than it. */
  function InsertByTime(x: Reading, s: seq<Reading>): (r: seq<Reading>)
    requires SortedByTime(s)
    ensures SortedByTime(r)
    ensures multiset(r) == multiset(s) + multiset{x}
    ensures |r| == |s| + 1 && (r[0] == x || (|s| > 0 && r[0] == s[0]))
  {
    if |s| == 0 then [x]
    else if x.timestamp <= s[0].timestamp then [x] + s
    else
      assert s == [s[0]] + s[1..];
      var rest := InsertByTime(x, s[1..]);
      assert s[0].timestamp <= rest[0].timestamp;
      [s[0]] + rest
  }

  /**
    The list ordered by timestamp, the result of `sort((a, b) => a.timestamp - b.timestamp)`.
    Insertion sort keeps readings with equal times in their original order, as
    the stable `Array.prototype.sort` does.
   */
  function SortByTime(s: seq<Reading>): (r: seq<Reading>)
    ensures SortedByTime(r)
    ensures multiset(r) == multiset(s)
  {
    if |s| == 0 then []
    else
      assert s == [s[0]] + s[1..];
      InsertByTime(s[0], SortByTime(s[1..]))
  }

  /** A list already in time order comes out of the sort unchanged. */
  lemma {:induction false} SortKeepsSorted(s: seq<Reading>)
    requires SortedByTime(s)
    ensures SortByTime(s) == s
    decreases |s|
  {
    if |s| > 0 {
      SortKeepsSorted(s[1..]);
      assert s == [s[0]] + s[1..];
    }
  }

  /** Sorting moves readings but keeps the property that all of them lie inside a range. */
  lemma SortKeepsInRange(s: seq<Reading>, range: ObjectRange)
    requires forall i :: 0 <= i < |s| ==> InRange(s[i].id, range)
    ensures forall i :: 0 <= i < |SortByTime(s)| ==> InRange(SortByTime(s)[i].id, range)
  {
    var r := SortByTime(s);
    forall i | 0 <= i < |r|
      ensures InRange(r[i].id, range)
    {
      assert r[i] in multiset(s);
    }
  }

  /** The readings taken at time `t`, in list order. */
  function AtTime(s: seq<Reading>, t: int): seq<Reading> {
    if |s| == 0 then []
    else (if s[0].timestamp == t then [s[0]] else []) + AtTime(s[1..], t)
  }

  lemma {:induction false} AtTimeAppend(a: seq<Reading>, b: seq<Reading>, t: int)
    ensures AtTime(a + b, t) == AtTime(a, t) + AtTime(b, t)
    decreases |a|
  {
    if |a| > 0 {
      assert (a + b)[1..] == a[1..] + b;
      AtTimeAppend(a[1..], b, t);
    } else {
      assert a + b == b;
    }
  }

  lemma {:induction false} InsertAtTime(x: Reading, s: seq<Reading>, t: int)
    requires SortedByTime(s)
    ensures AtTime(InsertByTime(x, s), t) == (if x.timestamp == t then [x] else []) + AtTime(s, t)
    decreases |s|
  {
    if |s| == 0 {
    } else if x.timestamp <= s[0].timestamp {
      ConsAtTime(x, s, t);
    } else {
      var rest := InsertByTime(x, s[1..]);
      var ax := if x.timestamp == t then [x] else [];
      var a0 := if s[0].timestamp == t then [s[0]] else [];
      calc {
        AtTime(InsertByTime(x, s), t);
        AtTime([s[0]] + rest, t);
        { ConsAtTime(s[0], rest, t); }
        a0 + AtTime(rest, t);
        { InsertAtTime(x, s[1..], t); }
        a0 + (ax + AtTime(s[1..], t));
        // Only one of `x` and the smaller `s[0]` can lie at `t`.
        { assert a0 + ax == ax + a0; }
        ax + (a0 + AtTime(s[1..], t));
        ax + AtTime(s, t);
      }
    }
  }

  /** `AtTime` of a list with one more reading in front. */
  lemma ConsAtTime(r: Reading, s: seq<Reading>, t: int)
    ensures AtTime([r] + s, t) == (if r.timestamp == t then [r] else []) + AtTime(s, t)
  {
    assert ([r] + s)[1..] == s;
  }

  /** The sort is stable: the readings sharing a timestamp keep their relative order. */
  lemma {:induction false} SortIsStable(s: seq<Reading>, t: int)
    ensures AtTime(SortByTime(s), t) == AtTime(s, t)
    decreases |s|
  {
    if |s| > 0 {
      SortIsStable(s[1..], t);
      InsertAtTime(s[0], SortByTime(s[1..]), t);
    }
  }

  /** Filtering commutes with selecting one timestamp, so the filter keeps the list order. */
  lemma {:induction false} FilterAtTime(docs: seq<Reading>, range: ObjectRange, t: int)
    ensures AtTime(FilterByRange(docs, range), t) == FilterByRange(AtTime(docs, t), range)
    decreases |docs|
  {
    if |docs| > 0 {
      FilterAtTime(docs[1..], range, t);
      var rest := FilterByRange(docs[1..], range);
      if InRange(docs[0].id, range) {
        AtTimeAppend([docs[0]], rest, t);
      }
      if docs[0].timestamp == t {
        assert AtTime(docs, t) == [docs[0]] + AtTime(docs[1..], t);
        assert ([docs[0]] + AtTime(docs[1..], t))[1..] == AtTime(docs[1..], t);
      } else {
        assert AtTime(docs, t) == AtTime(docs[1..], t);
      }
    }
  }
}

=== FILE: sample_data.dfy ===
/**
  The three sample readings the dashboard falls back to when the backend
  is unreachable or empty, and what the pipeline makes of them.
 */
module SampleData {
  import opened Readings
  import opened Frames
  import opened Analytics
  import StringOrder

  /** A sensor reporting both temperatures as numbers. */
  function Sample(address: string, ambient: real, obj: real): Sensor {
    Sensor(address, Num(ambient), Num(obj))
  }

  /** The built-in readings: three samples of the first object, five minutes apart, the object warming. */
  const MockData: seq<Reading> := [
    Reading("692217a74bf378bf90fcc040", 1763841600000,
            [Sample("0x5a", 29.0, 5.0), Sample("0x5b", 29.2, 4.8), Sample("0x5c", 29.1, 4.9), Sample("0x5d", 29.3, 4.7)]),
    Reading("692217a74bf378bf90fcc050", 1763841900000,
            [Sample("0x5a", 28.5, 8.0), Sample("0x5b", 28.8, 7.9), Sample("0x5c", 28.6, 7.8), Sample("0x5d", 28.9, 7.7)]),
    Reading("692217a74bf378bf90fcc060", 1763842200000,
            [Sample("0x5a", 28.0, 12.0), Sample("0x5b", 28.4, 11.9), Sample("0x5c", 28.2, 11.8), Sample("0x5d", 28.5, 11.7)])
  ]

  /** Each sample id lies inside the first object's range. */
  lemma SampleInFirstRange(i: nat)
    requires i < |MockData|
    ensures InRange(MockData[i].id, ObjectRanges[0])
  {
    SampleAfterStart(i);
    SampleBeforeEnd(i);
  }

  /** The sample ids and the first range's start agree on 22 characters; then the ids are larger. */
  lemma SampleAfterStart(i: nat)
    requires i < |MockData|
    ensures StringOrder.LessEq(ObjectRanges[0].start, MockData[i].id)
  {
    var start, id := ObjectRanges[0].start, MockData[i].id;
    if i == 0 {
      assert start[..22] == id[..22] && start[22] < id[22];
    } else if i == 1 {
      assert start[..22] == id[..22] && start[22] < id[22];
    } else {
      assert start[..22] == id[..22] && start[22] < id[22];
    }
    StringOrder.SmallerAt(start, id, 22);
  }

  /** The sample ids and the first range's end agree on 4 characters; then the ids are smaller. */
  lemma SampleBeforeEnd(i: nat)
    requires i < |MockData|
    ensures StringOrder.LessEq(MockData[i].id, ObjectRanges[0].end)
  {
    var id, end := MockData[i].id, ObjectRanges[0].end;
    if i == 0 {
      SampleBeforeEndAt0(id, end);
    } else if i == 1 {
      SampleBeforeEndAt1(id, end);
    } else {
      SampleBeforeEndAt2(id, end);
    }
  }

  lemma SampleBeforeEndAt0(id: string, end: string)
    requires id == MockData[0].id && end == ObjectRanges[0].end
    ensures StringOrder.LessEq(id, end)
  {
    assert id[..4] == end[..4] && id[4] < end[4];
    StringOrder.SmallerAt(id, end, 4);
  }

  lemma SampleBeforeEndAt1(id: string, end: string)
    requires id == MockData[1].id && end == ObjectRanges[0].end
    ensures StringOrder.LessEq(id, end)
  {
    assert id[..4] == end[..4] && id[4] < end[4];
    StringOrder.SmallerAt(id, end, 4);
  }

  lemma SampleBeforeEndAt2(id: string, end: string)
    requires id == MockData[2].id && end == ObjectRanges[0].end
    ensures StringOrder.LessEq(id, end)
  {
    assert id[..4] == end[..4] && id[4] < end[4];
    StringOrder.SmallerAt(id, end, 4);
  }

  /** The samples are five minutes apart, in time order. */
  lemma SamplesInTimeOrder()
    ensures SortedByTime(MockData)
  {
  }

  /** The filter for the first object keeps all samples and the sort leaves them in place. */
  lemma SamplesAreFirstObject()
    ensures FilterByRange(MockData, ObjectRanges[0]) == MockData
    ensures SortByTime(FilterByRange(MockData, ObjectRanges[0])) == MockData
  {
    forall i | 0 <= i < |MockData|
      ensures InRange(MockData[i].id, ObjectRanges[0])
    {
      SampleInFirstRange(i);
    }
    FilterKeepsAllInRange(MockData, ObjectRanges[0]);
    SamplesInTimeOrder();
    SortKeepsSorted(MockData);
  }

  /** When every sensor is valid, the ambient readings are those of all sensors, in order. */
  lemma AmbientsOfValid(ss: seq<Sensor>, amb: seq<real>)
    requires |ss| == |amb| && forall i :: 0 <= i < |ss| ==> ss[i].ambientTemp == Num(amb[i]) && IsValid(ss[i])
    ensures Ambients(ss) == amb
  {
    AllValidSensors(ss);
  }

  /** When every sensor is valid, the object readings are those of all sensors, in order. */
  lemma ObjectsOfValid(ss: seq<Sensor>, obj: seq<real>)
    requires |ss| == |obj| && forall i :: 0 <= i < |ss| ==> ss[i].objectTemp == Num(obj[i]) && IsValid(ss[i])
    ensures Objects(ss) == obj
  {
    AllValidSensors(ss);
  }

  /** The mean of four values. */
  lemma MeanOfFour(a: real, b: real, c: real, d: real)
    ensures Mean([a, b, c, d]) == (a + b + c + d) / 4.0
  {
    var xs := [a, b, c, d];
    assert xs[..3] == [a, b, c];
    assert [a, b, c][..2] == [a, b];
    assert [a, b][..1] == [a];
    assert [a][..0] == [];
    assert Sum([a]) == a;
    assert Sum([a, b]) == a + b;
    assert Sum([a, b, c]) == a + b + c;
    assert Sum(xs) == a + b + c + d;
  }

  /** A list's largest and smallest values are any members bounding all the others. */
  lemma ExtremesOf(xs: seq<real>, lo: real, hi: real)
    requires lo in xs && hi in xs
    requires forall i :: 0 <= i < |xs| ==> lo <= xs[i] <= hi
    ensures Max(xs) == hi && Min(xs) == lo
  {
  }

  /** The statistics of a reading whose sensors all report both temperatures as numbers. */
  lemma SummaryOfValid(doc: Reading, amb: seq<real>, obj: seq<real>)
    requires |doc.sensors| == |amb| == |obj|
    requires forall i :: 0 <= i < |amb| ==> doc.sensors[i].ambientTemp == Num(amb[i]) && doc.sensors[i].objectTemp == Num(obj[i])
    ensures Summarize(doc).avgAmb == Mean(amb)
    ensures Summarize(doc).avgObj == Mean(obj)
    ensures Summarize(doc).gradient == Gradient(amb)
  {
    AmbientsOfValid(doc.sensors, amb);
    ObjectsOfValid(doc.sensors, obj);
  }

  /** The gradient of four values, from their largest and smallest. */
  lemma GradientOfFour(a: real, b: real, c: real, d: real, lo: real, hi: real)
    requires lo in [a, b, c, d] && hi in [a, b, c, d]
    requires lo <= a <= hi && lo <= b <= hi && lo <= c <= hi && lo <= d <= hi
    ensures Gradient([a, b, c, d]) == hi - lo
  {
    ExtremesOf([a, b, c, d], lo, hi);
  }

  /** The averages and gradients of the three samples. */
  lemma FirstSampleStats(doc: Reading)
    requires doc == MockData[0]
    ensures Summarize(doc).avgAmb == 29.15
    ensures Summarize(doc).avgObj == 4.85
    ensures Summarize(doc).gradient == 0.3
  {
    SummaryOfValid(doc, [29.0, 29.2, 29.1, 29.3], [5.0, 4.8, 4.9, 4.7]);
    MeanOfFour(29.0, 29.2, 29.1, 29.3);
    MeanOfFour(5.0, 4.8, 4.9, 4.7);
    GradientOfFour(29.0, 29.2, 29.1, 29.3, 29.0, 29.3);
  }

  lemma SecondSampleStats(doc: Reading)
    requires doc == MockData[1]
    ensures Summarize(doc).avgAmb == 28.7
    ensures Summarize(doc).avgObj == 7.85
    ensures Summarize(doc).gradient == 0.4
  {
    SummaryOfValid(doc, [28.5, 28.8, 28.6, 28.9], [8.0, 7.9, 7.8, 7.7]);
    MeanOfFour(28.5, 28.8, 28.6, 28.9);
    MeanOfFour(8.0, 7.9, 7.8, 7.7);
    GradientOfFour(28.5, 28.8, 28.6, 28.9, 28.5, 28.9);
  }

  lemma ThirdSampleStats(doc: Reading)
    requires doc == MockData[2]
    ensures Summarize(doc).avgAmb == 28.275
    ensures Summarize(doc).avgObj == 11.85
    ensures Summarize(doc).gradient == 0.5
  {
    SummaryOfValid(doc, [28.0, 28.4, 28.2, 28.5], [12.0, 11.9, 11.8, 11.7]);
    MeanOfFour(28.0, 28.4, 28.2, 28.5);
    MeanOfFour(12.0, 11.9, 11.8, 11.7);
    GradientOfFour(28.0, 28.4, 28.2, 28.5, 28.0, 28.5);
  }

  /** Five minutes pass between samples. */
  lemma SamplesFiveMinutesApart(i: nat)
    requires 0 < i < |MockData|
    ensures MockData[i].timestamp - MockData[i - 1].timestamp == 300000
    ensures MinutesBetween(MockData[i - 1].timestamp, MockData[i].timestamp) == 5.0
  {
  }

  /** Three readings, five minutes apart: the rates are the object temperature changes over five minutes. */
  lemma EnrichThree(docs: seq<Reading>, o0: real, o1: real, o2: real)
    requires |docs| == 3
    requires Summarize(docs[0]).avgObj == o0 && Summarize(docs[1]).avgObj == o1 && Summarize(docs[2]).avgObj == o2
    requires MinutesBetween(docs[0].timestamp, docs[1].timestamp) == 5.0
    requires MinutesBetween(docs[1].timestamp, docs[2].timestamp) == 5.0
    ensures var fs := Enrich(docs);
            && |fs| == 3
            && (forall i :: 0 <= i < 3 ==> fs[i].doc == docs[i])
            && fs[0].rate == 0.0 && fs[1].rate == (o1 - o0) / 5.0 && fs[2].rate == (o2 - o1) / 5.0
  {
    var fs := Enrich(docs);
    assert docs[0].timestamp < docs[1].timestamp < docs[2].timestamp;
    assert fs[1].rate * 5.0 == o1 - o0;
    assert fs[2].rate * 5.0 == o2 - o1;
  }

  /** The first object's frames are the enriched samples, in their given order. */
  lemma SampleProcess(docs: seq<Reading>)
    requires docs == MockData
    ensures Process(docs, ObjectRanges[0]) == Enrich(docs)
  {
    SamplesAreFirstObject();
  }

  /**
    The sample readings yield three frames in their given order; the object
    warms by 3 and then 4 degrees over five minutes each, so the rates are
    0, 0.6 and 0.8 degrees per minute.
   */
  lemma SampleFrames(docs: seq<Reading>, fs: seq<Frame>)
    requires docs == MockData && fs == Enrich(docs)
    ensures |fs| == 3
    ensures forall i :: 0 <= i < 3 ==> fs[i].doc == docs[i] && fs[i].stats == Summarize(docs[i])
    ensures fs[0].rate == 0.0 && fs[1].rate == 0.6 && fs[2].rate == 0.8
  {
    FirstSampleStats(docs[0]);
    SecondSampleStats(docs[1]);
    ThirdSampleStats(docs[2]);
    SamplesFiveMinutesApart(1);
    SamplesFiveMinutesApart(2);
    EnrichThree(docs, 4.85, 7.85, 11.85);
  }

  /** The sensor at index `k` is the only one at `w`'s address, so it fills `w`'s slot. */
  lemma OnlySensorAt(ss: seq<Sensor>, w: Wall, k: nat)
    requires k < |ss| && ss[k].address == WallAddress(w)
    requires forall j :: 0 <= j < |ss| && j != k ==> ss[j].address != WallAddress(w)
    ensures Slot(ss, w) == Some(ss[k])
  {
  }

  /** Four sensors at the four wall addresses, in wall order, fill the four slots. */
  lemma FourWalls(ss: seq<Sensor>)
    requires |ss| == 4
    requires ss[0].address == "0x5a" && ss[1].address == "0x5b" && ss[2].address == "0x5c" && ss[3].address == "0x5d"
    ensures MapSensors(ss) == SensorMap(Some(ss[0]), Some(ss[1]), Some(ss[2]), Some(ss[3]))
  {
    OnlySensorAt(ss, Front, 0);
    OnlySensorAt(ss, Back, 1);
    OnlySensorAt(ss, Left, 2);
    OnlySensorAt(ss, Right, 3);
    assert MapSensors(ss).Get(Front) == Slot(ss, Front);
  }

  /** The variance of four values around `m`. */
  lemma VarianceOfFour(a: real, b: real, c: real, d: real, m: real)
    ensures Variance([a, b, c, d], m) == (Square(a - m) + Square(b - m) + Square(c - m) + Square(d - m)) / 4.0
  {
    var xs := [a, b, c, d];
    assert xs[1..] == [b, c, d];
    assert [b, c, d][1..] == [c, d];
    assert [c, d][1..] == [d];
    assert [d][1..] == [];
    assert SumSquares([d], m) == Square(d - m);
    assert SumSquares([c, d], m) == Square(c - m) + Square(d - m);
    assert SumSquares([b, c, d], m) == Square(b - m) + Square(c - m) + Square(d - m);
    assert SumSquares(xs, m) == Square(a - m) + Square(b - m) + Square(c - m) + Square(d - m);
  }

  /** With a sensor at each wall, the wall readings are the four ambient temperatures in wall order. */
  lemma FullWallAmbients(f: Sensor, b: Sensor, l: Sensor, r: Sensor)
    requires f.ambientTemp.Num? && b.ambientTemp.Num? && l.ambientTemp.Num? && r.ambientTemp.Num?
    ensures WallAmbients(SensorMap(Some(f), Some(b), Some(l), Some(r)))
            == [f.ambientTemp.value, b.ambientTemp.value, l.ambientTemp.value, r.ambientTemp.value]
  {
  }

  /** Four sensors at the four wall addresses, each with a numeric ambient reading. */
  lemma FourWallAmbients(ss: seq<Sensor>, amb: seq<real>)
    requires |ss| == 4 && |amb| == 4
    requires ss[0].address == "0x5a" && ss[1].address == "0x5b" && ss[2].address == "0x5c" && ss[3].address == "0x5d"
    requires forall k :: 0 <= k < 4 ==> ss[k].ambientTemp == Num(amb[k])
    ensures WallAmbients(MapSensors(ss)) == amb
  {
    FullWallAmbients(ss[0], ss[1], ss[2], ss[3]);
    assert amb == [amb[0], amb[1], amb[2], amb[3]];
    FourWalls(ss);
  }

  /** The wall readings of the samples: each sample has one sensor per wall, in wall order. */
  lemma SampleWalls(i: nat)
    requires i < |MockData|
    ensures WallAmbients(Summarize(MockData[i]).sensorMap)
            == [[29.0, 29.2, 29.1, 29.3], [28.5, 28.8, 28.6, 28.9], [28.0, 28.4, 28.2, 28.5]][i]
  {
    var ss := MockData[i].sensors;
    var amb := [[29.0, 29.2, 29.1, 29.3], [28.5, 28.8, 28.6, 28.9], [28.0, 28.4, 28.2, 28.5]][i];
    assert forall k :: 0 <= k < 4 ==> ss[k].ambientTemp == Num(amb[k]);
    FourWallAmbients(ss, amb);
  }

  /** The panel of a frame whose wall readings and statistics are known. */
  lemma PanelFromParts(fs: seq<Frame>, index: nat, amb: seq<real>, variance: real)
    requires index < |fs|
    requires WallAmbients(fs[index].stats.sensorMap) == amb
    requires Variance(amb, fs[index].stats.avgAmb) == variance
    ensures Analyze(fs, index) == Panel(StabilityScore(variance), fs[index].stats.gradient, fs[index].rate)
  {
  }

  /** The walls of the first sample spread around its average ambient temperature with variance 0.0125. */
  lemma FirstSampleVariance()
    ensures Variance([29.0, 29.2, 29.1, 29.3], 29.15) == 0.0125
  {
    VarianceOfFour(29.0, 29.2, 29.1, 29.3, 29.15);
  }

  /** The walls of the last sample spread around its average ambient temperature with variance 0.036875. */
  lemma LastSampleVariance()
    ensures Variance([28.0, 28.4, 28.2, 28.5], 28.275) == 0.036875
  {
    VarianceOfFour(28.0, 28.4, 28.2, 28.5, 28.275);
  }

  /**
    On the first sample the walls read 29, 29.2, 29.1 and 29.3 around an
    average of 29.15: the variance is 0.0125 and the stability 99.75.
   */
  lemma FirstSamplePanel(docs: seq<Reading>, fs: seq<Frame>)
    requires docs == MockData && fs == Enrich(docs)
    ensures Analyze(fs, 0) == Panel(99.75, 0.3, 0.0)
  {
    FirstSampleVariance();
    assert StabilityScore(0.0125) == 99.75;
    SampleFrames(docs, fs);
    FirstSampleStats(fs[0].doc);
    SampleWalls(0);
    PanelFromParts(fs, 0, [29.0, 29.2, 29.1, 29.3], 0.0125);
  }

  /**
    On the last sample the walls read 28, 28.4, 28.2 and 28.5 around an
    average of 28.275: the stability is 99.2625, and the rate of 0.8
    degrees per minute raises the rapid-warming flag.
   */
  lemma LastSamplePanel(docs: seq<Reading>, fs: seq<Frame>)
    requires docs == MockData && fs == Enrich(docs)
    ensures Analyze(fs, 2) == Panel(99.2625, 0.5, 0.8)
    ensures IsAnomalous(Analyze(fs, 2))
  {
    LastSampleVariance();
    assert StabilityScore(0.036875) == 99.2625;
    SampleFrames(docs, fs);
    ThirdSampleStats(fs[2].doc);
    SampleWalls(2);
    PanelFromParts(fs, 2, [28.0, 28.4, 28.2, 28.5], 0.036875);
  }
}

=== FILE: string_order.dfy ===
/**
  The ordering JavaScript uses for `<`, `<=` and `>=` on two strings: the
  strings are compared element by element, the first differing element
  decides, and a proper prefix is smaller than the longer string.

  Dafny's built-in `<` on sequences means "proper prefix", so the order is
  defined here explicitly. Elements are compared by their `char` value.
 */
module StringOrder {

  /** JavaScript `a < b` on strings. */
  predicate Less(a: string, b: string)
    decreases |a|
  {
    if |b| == 0 then false
    else if |a| == 0 then true
    else if a[0] != b[0] then a[0] < b[0]
    else Less(a[1..], b[1..])
  }

  /** JavaScript `a <= b` on strings, which the language defines as `!(b < a)`. */
  predicate LessEq(a: string, b: string) {
    !Less(b, a)
  }

  /** The specification of `Less`: a proper prefix, or smaller at the first difference. */
  ghost predicate LexBefore(a: string, b: string) {
    || (|a| < |b| && a == b[..|a|])
    || exists k :: 0 <= k < |a| && k < |b| && a[..k] == b[..k] && a[k] < b[k]
  }

  /** A proper prefix is smaller than the string it starts. */
  lemma {:induction false} PrefixIsLess(a: string, b: string)
    requires |a| < |b| && a == b[..|a|]
    ensures Less(a, b)
    decreases |a|
  {
    if |a| > 0 {
      assert a[0] == b[0];
      assert a[1..] == b[1..][..|a[1..]|];
      PrefixIsLess(a[1..], b[1..]);
    }
  }

  /** Past a common prefix, the first differing element alone decides the order. */
  lemma {:induction false} FirstDifferenceDecides(a: string, b: string, k: nat)
    requires k < |a| && k < |b| && a[..k] == b[..k] && a[k] != b[k]
    ensures Less(a, b) <==> a[k] < b[k]
    decreases k
  {
    if k > 0 {
      assert a[0] == a[..k][0] == b[..k][0] == b[0];
      assert a[1..][..k-1] == a[..k][1..];
      assert b[1..][..k-1] == b[..k][1..];
      FirstDifferenceDecides(a[1..], b[1..], k - 1);
    }
  }

  /** Strings that agree on their first `k` elements and differ upward at position `k` are strictly ordered. */
  lemma SmallerAt(a: string, b: string, k: nat)
    requires k < |a| && k < |b| && a[..k] == b[..k] && a[k] < b[k]
    ensures Less(a, b) && LessEq(a, b)
  {
    FirstDifferenceDecides(a, b, k);
    LessAsymmetric(a, b);
  }

  lemma {:induction false} LessIsLexBefore(a: string, b: string)
    requires Less(a, b)
    ensures LexBefore(a, b)
    decreases |a|
  {
    if |a| == 0 {
      assert a == b[..0];
    } else if a[0] != b[0] {
      assert a[..0] == b[..0];
    } else {
      LessIsLexBefore(a[1..], b[1..]);
      if |a[1..]| < |b[1..]| && a[1..] == b[1..][..|a[1..]|] {
        assert a == [a[0]] + a[1..];
        assert b[..|a|] == [b[0]] + b[1..][..|a[1..]|];
      } else {
        var k :| 0 <= k < |a[1..]| && k < |b[1..]| && a[1..][..k] == b[1..][..k] && a[1..][k] < b[1..][k];
        assert a[..k+1] == [a[0]] + a[1..][..k];
        assert b[..k+1] == [b[0]] + b[1..][..k];
      }
    }
  }

  /** `Less` agrees with the textbook definition of lexicographic order. */
  lemma LessMeansLexBefore(a: string, b: string)
    ensures Less(a, b) <==> LexBefore(a, b)
  {
    if Less(a, b) {
      LessIsLexBefore(a, b);
    }
    if LexBefore(a, b) {
      if |a| < |b| && a == b[..|a|] {
        PrefixIsLess(a, b);
      } else {
        var k :| 0 <= k < |a| && k < |b| && a[..k] == b[..k] && a[k] < b[k];
        FirstDifferenceDecides(a, b, k);
      }
    }
  }

  lemma {:induction false} LessIrreflexive(a: string)
    ensures !Less(a, a)
    decreases |a|
  {
    if |a| > 0 {
      LessIrreflexive(a[1..]);
    }
  }

  lemma {:induction false} LessAsymmetric(a: string, b: string)
    ensures Less(a, b) ==> !Less(b, a)
    decreases |a|
  {
    if |a| > 0 && |b| > 0 && a[0] == b[0] {
      LessAsymmetric(a[1..], b[1..]);
    }
  }

  lemma {:induction false} LessTransitive(a: string, b: string, c: string)
    requires Less(a, b) && Less(b, c)
    ensures Less(a, c)
    decreases |a|
  {
    if |a| > 0 && a[0] == b[0] && b[0] == c[0] {
      LessTransitive(a[1..], b[1..], c[1..]);
    }
  }

  /** Any two different strings are ordered one way or the other. */
  lemma {:induction false} LessTrichotomous(a: string, b: string)
    ensures a == b || Less(a, b) || Less(b, a)
    decreases |a|
  {
    if |a| > 0 && |b| > 0 && a[0] == b[0] {
      LessTrichotomous(a[1..], b[1..]);
      if a[1..] == b[1..] {
        assert a == [a[0]] + a[1..];
        assert b == [b[0]] + b[1..];
      }
    }
  }

  /** `<=` on strings is "equal or strictly before": a total order. */
  lemma LessEqIsEqualOrLess(a: string, b: string)
    ensures LessEq(a, b) <==> (a == b || Less(a, b))
  {
    LessTrichotomous(a, b);
    LessAsymmetric(a, b);
    LessIrreflexive(a);
  }

  lemma LessEqTransitive(a: string, b: string, c: string)
    requires LessEq(a, b) && LessEq(b, c)
    ensures LessEq(a, c)
  {
    LessEqIsEqualOrLess(a, b);
    LessEqIsEqualOrLess(b, c);
    LessEqIsEqualOrLess(a, c);
    if Less(a, b) && Less(b, c) {
      LessTransitive(a, b, c);
    }
  }

  lemma LessEqAntisymmetric(a: string, b: string)
    requires LessEq(a, b) && LessEq(b, a)
    ensures a == b
  {
    LessTrichotomous(a, b);
  }
}
